=== FILE: README.md ===
# Lanai bot core, modelled in Dafny

Lanai is a French-speaking WhatsApp companion bot. This project models
three pieces of its logic as pure Dafny functions and proves what they
promise:

- **The sports-question pipeline** (`sports_query.py`). The bot classifies
  a question as a match-result question. It extracts the team name with
  three ordered regular expressions and the period ("hier", "aujourd'hui",
  "ce week-end"), and resolves the period to an inclusive range of days.
  It then asks the football provider and then the basketball provider.
  From each provider's answer it picks the newest finished game of the
  team. It phrases the result in French from the team's point of view.
- **The daily results digest** (`lanai_results.py`). This covers the
  season a date belongs to for football and for the NBA, one line per
  complete game, one error line per failed request, and the message built
  from the two sections.
- **The daily companion message** (`lanai_content.py`). This covers the
  decision table that picks the GPT text and/or a line from the content
  bank according to the mode and the presence of an API key. It also
  covers the choice of a bank line, and the digest-based history that
  makes the cron build one replacement when the first message was already
  sent. If the replacement was sent before too, the first message goes out
  again, and entries older than the cutoff are forgotten.

Network calls, the clock, randomness and the md5 digest are parameters of
the model:

- a provider is a key flag, a search function and a games function;
- `today`, `now` and `cutoff` are integers;
- a choice is an index reduced modulo the list length;
- the hash is a function.

Dates are day numbers (day 0 is 1970-01-01, a Thursday), and
`Weekday(d) = (d + 3) % 7` numbers Monday 0 as Python does. Timestamps of
games are `Option<int>`, with `None` ranked below every real time, as
`datetime.min` is in the source.

Python's regular expressions are modelled by a small backtracking matcher
(module `Matcher`). It covers the constructs the three patterns use:
literals, an optional one-character class, `\s*` and `\s+`, an optional or
mandatory alternation, and a lazy `.+?`, all case-insensitive. The matcher
is proved sound and complete against an independent declarative
definition of a match. It finds a match exactly when one exists, and it
finds the leftmost one.

A few facts about the code that the model keeps:

- scores are printed in home–away order, whichever side the team is on;
- the sentences are in French;
- basketball counts `FT`, `AOT` and `FT OT` as finished;
- the home and away tests are independent: a name found on both sides can
  win from either side.

Modules, in dependency order: `Common` (Option, Result), `Text`,
`Matcher`, `TeamName`, `Classifier`, `Period`, `Selection`, `Answer`,
`Pipeline`, `DailyResults`, `DailyContent`.

## Model

| member | source | states |
|---|---|---|
| Text.Lower | sports_query.py:35 | an ASCII or Latin-1 capital becomes a small letter; every other character is kept; no capital comes out |
| Text.LowerDistinct | sports_query.py:35 | distinct capitals become distinct small letters, so lower-casing confuses no two letters |
| Text.LowerLetters | sports_query.py:35 | which small letter a capital becomes: "A" gives "a", "Z" gives "z", "À" gives "à", "É" gives "é", "Þ" gives "þ"; "×" and the apostrophe "’" are kept |
| Text.LowerStr | sports_query.py:35 | `lower()` keeps the length, leaves no ASCII or Latin-1 capital anywhere in the text, and keeps every character that is not a capital where it was |
| Text.LowerStrIdempotent | sports_query.py:35 | lower-casing a lower-cased text changes nothing |
| Text.Contains | sports_query.py:40 | the substring test `k in t` holds exactly when `k` occurs in `t` at some index |
| Text.OccursLower | sports_query.py:35-40 | a substring of a text, lower-cased, is a substring of the lower-cased text |
| Text.StripSpace | sports_query.py:65 | `strip()` removes a run of whitespace from each end and nothing else; the result has no whitespace at either end |
| Text.StripUnique | sports_query.py:65 | the stripped text is the only piece of the input that is bordered by whitespace runs and has no whitespace at either end |
| Text.StripIdempotent | sports_query.py:73 | stripping a stripped text changes nothing |
| Text.IntToString | sports_query.py:286 | `str(n)` writes `n` in decimal: a minus sign for negatives, no leading zeros, digits that read back as the number |
| Text.NatToStringRoundTrip | sports_query.py:286 | reading back the decimal digits of a natural number gives the number |
| Text.DenotesUnique | sports_query.py:286 | a decimal numeral denotes only one integer |
| Classifier.IsSportsQuestion | sports_query.py:27-45 | false for the empty text; otherwise true exactly when one of the six keywords occurs in the lower-cased text |
| Classifier.AnyOccurs | sports_query.py:40 | `any(k in t for k in ks)` is true exactly when some keyword of the list occurs |
| Classifier.KeywordMakesSportsQuestion | sports_query.py:38-43 | one occurring keyword is enough to classify the text as a sports question |
| Classifier.SportsQuestionMonotone | sports_query.py:40-43 | text added around a sports question leaves it a sports question |
| Matcher.CandidatesExact | sports_query.py:69 | each atom offers an end position exactly when the atom matches up to that position |
| Matcher.MatchSound | sports_query.py:69 | what the depth-first search returns is a match of the remaining atoms, starting where it was asked to |
| Matcher.MatchComplete | sports_query.py:69 | when the depth-first search fails, no match of the remaining atoms starts there |
| Matcher.MatchVia | sports_query.py:69 | the search takes the first end position, in the atom's priority order, from which the rest of the pattern matches |
| Matcher.MatchNone | sports_query.py:69 | the search fails when no end position of the atom leads to a match of the rest |
| Matcher.SearchCorrect | sports_query.py:68-71 | `re.search` finds a match exactly when one exists, and the match it finds starts at the leftmost position where any match starts |
| Matcher.AltEnds | sports_query.py:69 | an alternation offers exactly the ends of the alternatives that match at the position |
| Matcher.TryEachFirst | sports_query.py:69 | trying the candidate ends of an atom in order, the search goes through the first one from which the rest of the pattern matches |
| Matcher.MatchPreferred | sports_query.py:69 | the match the search finds from a position is the one backtracking prefers: at every atom, every end position tried before the one taken leads to no match of the rest |
| Matcher.PreferredUnique | sports_query.py:69 | two matches that backtracking prefers and that start at the same position are the same match, so the groups are fixed |
| Matcher.SearchFromPreferred | sports_query.py:68-71 | the match `re.search` reports is the one backtracking prefers |
| TeamName.Capture | sports_query.py:68-74 | a pattern yields nothing exactly when it matches nowhere; otherwise it yields the group's text in the match that starts leftmost and that backtracking prefers among those starting there (the optional article and the greedy `\s*` before the lazy group are tried first) |
| TeamName.CaptureUnique | sports_query.py:68-74 | a pattern captures at most one text in a question: the capture is determined |
| TeamName.CleanTeam | sports_query.py:73 | `strip(" ?.!")` followed by `strip()`: punctuation runs, then whitespace runs, are removed from both ends and nothing else |
| TeamName.ExtractTeamName | sports_query.py:52-65 | the empty question gives no name; a name never has whitespace at either end |
| TeamName.ExtractTeamNameOrder | sports_query.py:61-91 | for a non-empty question: no name exactly when none of the three patterns matches the stripped question; otherwise the cleaned capture, in the sense of `Capture` above, of the first pattern, in order, that matches |
| Period.ExtractTimePeriod | sports_query.py:94-114 | always one of the four labels; "hier" has priority over "aujourd'hui"/"aujourdhui", which has priority over "ce week-end"/"ce weekend"; the empty text is unspecified |
| Period.ResolvePeriodToDates | sports_query.py:121-151 | "today" gives (t, t); every label other than "today" and "weekend" gives (t-1, t-1); "weekend" gives a Saturday and the next day, 1 to 7 days back, with no Saturday strictly between it and t, stepping back a full week on a Saturday and ending on t on a Sunday; start ≤ end ≤ t always |
| Selection.NewestIndex | sports_query.py:226-248 | sorting newest first with a stable sort and scanning gives: nothing exactly when no record is finished and involves the team; otherwise a qualifying record not older than any qualifying record and strictly newer than every qualifying record before it |
| Selection.PickLastFinished | sports_query.py:219-250 | nothing for an empty list, and nothing exactly when no record qualifies; a result is a member of the input, finished (status FT, AET or PEN in football; FT, AOT or FT OT in basketball), involving the team id, and not older than any qualifying record; the basketball twin at lines 352-383 is the same function |
| Selection.NewestIndexUnique | sports_query.py:234-248 | the specification above determines the chosen record: any index that meets it is the one chosen |
| Selection.IrrelevantAppended | sports_query.py:236-246 | a record that is unfinished or does not involve the team never changes the choice when added at the end |
| Selection.IrrelevantPrepended | sports_query.py:236-246 | the same when it is added at the front |
| Answer.OutcomeOf | sports_query.py:275-281 | a draw exactly when the scores are equal; a win exactly when the team was recognised on the side with more points; a loss otherwise, including when the team is recognised on neither side |
| Answer.NamesTeam | sports_query.py:271-273 | the side test is containment of the lower-cased team name in the lower-cased side name |
| Answer.ScoreText | sports_query.py:286 | the score is the home score and the away score written around the only en dash of the text |
| Answer.SplitUnique | sports_query.py:286 | a printed score reads back as only one pair of numbers |
| Answer.ScoreTextInjective | sports_query.py:286 | different scores never print the same |
| Answer.FormatAnswer | sports_query.py:253-286 | the sentence is the team name, the outcome words, the home–away score and " contre " and the opponent; the outcome follows the rules above; the opponent is the away side when the team is recognised at home and the home side otherwise; missing names and scores take the defaults "Équipe domicile", "Équipe extérieur" and 0; the basketball twin at lines 386-415 is the same function |
| Pipeline.AskProvider | sports_query.py:443-451 | no answer without a key, without a search hit, or for a missing or zero id; with a key, a non-zero id and a finished game of that id within the dates there is an answer; an answer is the sentence for a finished game of that id within the dates that is not older than any other such game |
| Pipeline.HandleSportsQuestion | sports_query.py:422-469 | nothing for the empty text, for no or an empty team, or with no key configured; with a key and a team there is always an answer: football's if it has one, else basketball's, else the "not found" sentence |
| Pipeline.FootballFirst | sports_query.py:443-451 | when football answers for a non-empty team, that answer is the result and the basketball provider is not consulted |
| Pipeline.LitKeyword | sports_query.py:38 | for ASCII and Latin-1 text: a keyword that is a prefix of a literal the pattern matched occurs in the lower-cased text |
| Pipeline.WhatDidHasKeyword | sports_query.py:69 | for ASCII and Latin-1 text: a text the first pattern matches contains "a fait" once lower-cased |
| Pipeline.ScoreOfHasKeyword | sports_query.py:78 | for ASCII and Latin-1 text: a text the second pattern matches contains "score" once lower-cased |
| Pipeline.BeforeNounHasKeyword | sports_query.py:86 | for ASCII and Latin-1 text: a text the third pattern matches contains "match", "score", "résultat" or "resultat" once lower-cased |
| Pipeline.CapturedIsSportsQuestion | sports_query.py:61-91 | for ASCII and Latin-1 text: any text one of the three patterns matches is a sports question |
| Pipeline.TeamImpliesSportsQuestion | sports_query.py:435-438 | for ASCII and Latin-1 text: every question the team extractor understands is also accepted by the keyword classifier |
| Pipeline.AnswerImpliesSportsQuestion | sports_query.py:432-438 | for ASCII and Latin-1 text: the orchestrator answers only sports questions, although it never calls the classifier |
| DailyResults.SaisonFootball | lanai_results.py:36-42 | the season is the latest year whose July is not after the date: the year itself from July on, the year before otherwise |
| DailyResults.SaisonNba | lanai_results.py:44-51 | "S-T" where S is the year the season started (seasons start in October) and T is S + 1 |
| DailyResults.SaisonNbaReadsBack | lanai_results.py:50-51 | the two numbers of the NBA season string are the year from October on (else the year before) and the year after it |
| DailyResults.CompleteLines | lanai_results.py:82-88 | the lines are exactly the lines of the records with both names and both scores present; every record complete gives one line each |
| DailyResults.CompleteLinesOne | lanai_results.py:87-88 | one record gives its one line when it is complete and no line otherwise |
| DailyResults.CompleteLinesAppend | lanai_results.py:82-88 | the records are read one at a time in response order: the lines of two runs of records are the lines of the first run followed by those of the second, so there is one line per complete record, in order |
| DailyResults.NbaLines | lanai_results.py:80-90 | a failed request gives exactly the one line "(erreur API NBA)"; a successful one gives the lines of the complete games, in response order, and nothing else |
| DailyResults.LeagueLines | lanai_results.py:98-107 | the same for one football league, each line ending with the league's name in parentheses |
| DailyResults.FootballLines | lanai_results.py:93-107 | the football section holds exactly the lines of each league |
| DailyResults.FootballLinesOne | lanai_results.py:94-107 | one league contributes exactly its own lines |
| DailyResults.FootballLinesAppend | lanai_results.py:94 | the leagues are handled one at a time in list order: the lines of two runs of leagues are those of the first run followed by those of the second, so Ligue 1's lines come before the Premier League's |
| DailyResults.Join | lanai_results.py:113 | the joined text contains every part, and one part joins to itself |
| DailyResults.SplitJoin | lanai_results.py:113 | splitting the newline-joined lines at the newlines gives back exactly the lines, in order, when none of them holds a newline |
| DailyResults.SplitAppend | lanai_results.py:113 | a line without the separator, followed by the separator, splits off as the first piece |
| DailyResults.SectionLines | lanai_results.py:113 | a non-empty section consists of exactly the bulleted lines, one per text line, in order |
| DailyResults.Section | lanai_results.py:113 | an empty section is the section's placeholder; otherwise every line appears as a bullet |
| DailyResults.NbaPart | lanai_results.py:112-114 | the NBA part shows every NBA line as a bullet, and " - Aucun match." when there is none |
| DailyResults.FootballPart | lanai_results.py:116-117 | the football part shows every football line as a bullet, and " - Aucun match important." when there is none |
| DailyResults.Digest | lanai_results.py:110-117 | every line of either section appears in the message as a bullet |
| DailyResults.SplitJoinThen | lanai_results.py:113-114 | newline-joined lines followed by a newline and more text split into the lines, in order, and then the rest |
| DailyResults.SectionThen | lanai_results.py:113-116 | the NBA section followed by its newline splits into its bullets, or into " - Aucun match." and the empty line, and then the rest |
| DailyResults.SectionLast | lanai_results.py:117 | the football section at the end splits into its bullets, or into " - Aucun match important." and the empty line |
| DailyResults.DigestSplit | lanai_results.py:110-117 | read line by line, the message is exactly: the greeting, the date line, an empty line, "🏀 NBA :", the NBA bullets or placeholder, "⚽ Football européen :", the football bullets or placeholder; the NBA part comes before the football part and the lines keep their order |
| DailyResults.DailyDigest | lanai_results.py:80-117 | from the NBA response and one response per league (Ligue 1, then Premier League): read line by line, the message is the layout above applied to the NBA lines and the football lines, when neither the date nor any line holds a newline |
| DailyContent.ParseMode | lanai_content.py:11 | an unset mode setting is hybrid; a set one is lower-cased and compared with "hybrid", "json" and "gpt" |
| DailyContent.EffectiveMode | lanai_content.py:143-145 | without an OpenAI key, gpt and hybrid become json; every other mode is kept; an effective gpt or hybrid mode implies a key |
| DailyContent.Parts | lanai_content.py:147-157 | the GPT text is used only in gpt and hybrid modes, and the bank line only in json and hybrid modes; a missing GPT text with a bank line becomes the greeting |
| DailyContent.Compose | lanai_content.py:159-166 | composing fails with the "no content" error exactly when neither part is there; a message has no whitespace at either end |
| DailyContent.BuildMessage | lanai_content.py:142-166 | the message fails exactly when no source that the effective mode asks for has text; the error is the "no content" message |
| DailyContent.DecisionTable | lanai_content.py:155-166 | json mode, with or without a key, gives the greeting, a blank line and the bank line; with a key, hybrid mode gives the GPT text, a blank line and the bank line, or the GPT text alone when there is no bank line, and gpt mode gives the GPT text alone (without a key see NoKeyIsJson) |
| DailyContent.JsonIgnoresGpt | lanai_content.py:150-151 | in json mode the GPT text makes no difference |
| DailyContent.GptIgnoresBank | lanai_content.py:153-154 | in gpt mode with a key the bank line makes no difference |
| DailyContent.NoKeyIsJson | lanai_content.py:144-145 | without a key, gpt and hybrid modes give the message json mode gives |
| DailyContent.HybridWithoutGptIsJson | lanai_content.py:156-157 | in hybrid mode a missing GPT text gives the json-mode message: the greeting and the bank line |
| DailyContent.UnknownModeFails | lanai_content.py:150-166 | an unrecognised mode asks neither source and always fails |
| DailyContent.Preview | lanai_content.py:59 | the preview is the first 120 characters, or the whole text when it is shorter |
| DailyContent.HasHash | lanai_content.py:55 | true exactly when some entry carries the digest |
| DailyContent.AlreadySent | lanai_content.py:53-55 | a text was sent exactly when some entry carries the digest of its stripped form |
| DailyContent.Remember | lanai_content.py:57-60 | exactly one entry is appended, with the time, the digest of the stripped text and the preview; the earlier entries are unchanged |
| DailyContent.RememberedIsSent | lanai_content.py:53-60 | after remembering a text, it counts as sent, and so does every text with the same stripped form |
| DailyContent.RememberKeepsSent | lanai_content.py:57-60 | remembering never makes a sent text unsent |
| DailyContent.PruneHistory | lanai_content.py:47-51 | exactly the entries sent at or after the cutoff are kept |
| DailyContent.PruneAppend | lanai_content.py:49 | pruning works entry by entry and keeps the original order |
| DailyContent.PruneIdempotent | lanai_content.py:47-51 | pruning twice with the same cutoff is pruning once |
| DailyContent.CronStep | lanai_content.py:189-199 | the first message is sent unless it was already sent; the second one replaces it exactly when the first was already sent and the second was not; a failure to build the first message, or the second when it is needed, fails the run with that error; the message sent is then remembered with its time, digest and preview |
| DailyContent.UsableAmong | lanai_content.py:124-127 | the categories kept are exactly those present as non-empty lists |
| DailyContent.UsableAmongAppend | lanai_content.py:125-127 | the scan goes one category at a time, so the kept categories stay in the listed order |
| DailyContent.PickFromBank | lanai_content.py:123-139 | nothing exactly when none of the five categories is a non-empty list; otherwise the prefix of a usable category followed by one of its texts, stripped |
| DailyContent.PickCanReachAll | lanai_content.py:130-131 | every text of every usable category can be picked |

## Left out

- The HTTP calls are not modelled: the team searches, the fixture and game queries, and the digest's requests. Their results are inputs: a key flag, a search function giving `Option<TeamRef>`, a games function, and a status code with records.
- The clock, `random.choice`, md5 and the OpenAI and Twilio SDK calls are not modelled. `generate_gpt_snippet`, `send_whatsapp`, the database write and the history and bank file I/O are left out too. The clock, the random choices, md5 and the GPT text are parameters.
- DailyContent.CronStep: models a run whose WhatsApp send succeeds and always remembers the message sent. In the source, `send_whatsapp` raises `ValueError` when the Twilio settings are missing (lanai_content.py:175-178), or the Twilio call raises; either way the run stops at line 198, before `remember` on line 199, and the history is left unchanged. That failure path is not modelled.
- The module-level environment checks of `lanai_results.py` (missing keys raise at import) and the `print` diagnostics are left out.
- The digest models dates as a year and a month plus the date text. The `strptime` validation of a malformed date is left out.
- Timestamps are integers. ISO parsing is not modelled, and an unparseable or missing game date is `None`. The source raises `TypeError` when it sorts a mix of timezone-aware dates and the naive `datetime.min`, and the model does not reproduce that.
- Answer.FormatAnswer: a JSON `null` name or score is treated as missing and takes the default, so the model always gives a sentence. In the source, a `null` side name, or a `null` team name from the search, raises `AttributeError` at the `.lower()` calls (sports_query.py:271-273), and the exception leaves `handle_sports_question`. When both scores are `null`, `None == None` holds on line 276: the source reports a draw and prints "None–None", where the model prints "0–0". When exactly one score is `null`, the comparison on line 278 raises `TypeError` if the team is recognised on a side. Otherwise the source reports a loss and prints "None" for that score, where the model prints 0.
- The league ids (12 for the NBA, 61 and 39 for the football leagues) and the season only go into the request URLs, which are not modelled.
- Lower-casing covers ASCII and Latin-1 letters only. Full Unicode case mapping and case folding under `(?i)` are not modelled. The model uses the same case map for `lower()` and for `(?i)`; Python does not. Its `re.IGNORECASE` matches "ſ" (U+017F) with "s", and "ı" (U+0131) and "İ" (U+0130) with "i", while `str.lower()` keeps "ſ" and "ı". The seven lines below follow from this.
- Pipeline.LitKeyword: holds for ASCII and Latin-1 text only. Under Python's `(?i)` a literal can match text such as "ſcore" whose lower case does not contain the keyword.
- Pipeline.WhatDidHasKeyword: holds for ASCII and Latin-1 text only. In Python "qu'a faıt le PSG hier" matches the first pattern, but its lower case does not contain "a fait".
- Pipeline.ScoreOfHasKeyword: holds for ASCII and Latin-1 text only. In Python "le ſcore du PSG hier" matches the second pattern, but its lower case does not contain "score".
- Pipeline.BeforeNounHasKeyword: holds for ASCII and Latin-1 text only. In Python "du PSG ſcore" matches the third pattern without any keyword in its lower case.
- Pipeline.CapturedIsSportsQuestion: holds for ASCII and Latin-1 text only. In Python "Quel est le ſcore du PSG hier ?" is captured by the second pattern, and `is_sports_question` rejects it.
- Pipeline.TeamImpliesSportsQuestion: holds for ASCII and Latin-1 text only. The same question gives the team "PSG", and the classifier rejects it.
- Pipeline.AnswerImpliesSportsQuestion: holds for ASCII and Latin-1 text only. With a provider key, the source answers the same question although the classifier rejects it.
- The regular expression engine is modelled only for the constructs the three team patterns use.
- `app.py`, `memory_store.py` and `lanai_meteo.py` are not part of this model.
- Selection.PickLastFinished: does not model a team id of a type other than integer, or a record whose `teams` field is missing, because the records are typed.
- DailyResults.Join: its own contract states only that every part occurs in the result. The exact layout is stated by DailyResults.SplitJoin, for lines that hold no newline of their own.

=== FILE: answer.dfy ===
/** Sentence formatting (`format_football_answer` and
    `format_basketball_answer` in sports_query.py): the outcome from the
    named team's point of view, the score in home–away order and the
    opponent, in French. */
module Answer {
  import opened Common
  import opened Text
  import opened Selection

  datatype Outcome = Won | Draw | Lost

  /** The verb phrase the sentence uses for each outcome. */
  function OutcomeWords(o: Outcome): string {
    match o
    case Won => "a gagn\U{E9}"
    case Draw => "a fait match nul"
    case Lost => "a perdu"
  }

  /** Equal scores are a draw whoever plays; otherwise the team won exactly
      when it was recognised on the side with more points. */
  function OutcomeOf(isHome: bool, isAway: bool, h: int, a: int): (o: Outcome)
    ensures o == Draw <==> h == a
    ensures o == Won <==> h != a && ((isHome && h > a) || (isAway && a > h))
    ensures o == Lost <==> h != a && !(isHome && h > a) && !(isAway && a > h)
  {
    if h == a then Draw
    else if (isHome && h > a) || (isAway && a > h) then Won
    else Lost
  }

  const HomeDefault: string := "\U{C9}quipe domicile"
  const AwayDefault: string := "\U{C9}quipe ext\U{E9}rieur"

  /** `team.lower() in side_name.lower()`. */
  function NamesTeam(sideName: string, team: string): (b: bool)
    ensures b <==> Occurs(LowerStr(team), LowerStr(sideName))
  {
    Contains(LowerStr(sideName), LowerStr(team))
  }

  /** The score as printed: home score, an en dash, away score. It reads
      back unambiguously, the en dash being its only dash of that kind. */
  function ScoreText(h: int, a: int): (s: string)
    ensures exists i :: SplitsAt(s, i, h, a)
  {
    var x := IntToString(h);
    var y := IntToString(a);
    var s := x + "\U{2013}" + y;
    assert s[..|x|] == x && s[|x| + 1..] == y;
    assert SplitsAt(s, |x|, h, a);
    s
  }

  /** `s` is `h` and `a` written out around its only en dash, at index `i`. */
  predicate SplitsAt(s: string, i: int, h: int, a: int) {
    && 0 <= i < |s| && s[i] == '\U{2013}'
    && Denotes(s[..i], h) && Denotes(s[i + 1..], a)
    && (forall k :: 0 <= k < |s| && k != i ==> s[k] != '\U{2013}')
  }

  /** A printed score reads back as only one pair of numbers. */
  lemma SplitUnique(s: string, i: int, j: int, h: int, a: int, h2: int, a2: int)
    requires SplitsAt(s, i, h, a) && SplitsAt(s, j, h2, a2)
    ensures h == h2 && a == a2
  {
    assert i == j;
    DenotesUnique(s[..i], h, h2);
    DenotesUnique(s[i + 1..], a, a2);
  }

  /** Different scores never print the same. */
  lemma ScoreTextInjective(h: int, a: int, h2: int, a2: int)
    requires ScoreText(h, a) == ScoreText(h2, a2)
    ensures h == h2 && a == a2
  {
    var s := ScoreText(h, a);
    var i :| SplitsAt(s, i, h, a);
    var j :| SplitsAt(s, j, h2, a2);
    SplitUnique(s, i, j, h, a, h2, a2);
  }

  /** `format_football_answer` / `format_basketball_answer` (the two differ
      only in where they find the fields, which `Game` already abstracts).
      The sentence is the team name, the outcome from the team's point of
      view, the score in home–away order and the opponent; a missing name
      or score takes the source's default. */
  function FormatAnswer(team: string, g: Game): (s: string)
    ensures
      var homeName := g.home.name.GetOr(HomeDefault);
      var awayName := g.away.name.GetOr(AwayDefault);
      var h := g.homeScore.GetOr(0);
      var a := g.awayScore.GetOr(0);
      var isHome := Occurs(LowerStr(team), LowerStr(homeName));
      var isAway := Occurs(LowerStr(team), LowerStr(awayName));
      exists o: Outcome, opponent: string ::
        && s == team + " " + OutcomeWords(o) + " " + ScoreText(h, a) + " contre " + opponent + "."
        && (o == Draw <==> h == a)
        && (o == Won <==> h != a && ((isHome && h > a) || (isAway && a > h)))
        && opponent == (if isHome then awayName else homeName)
  {
    var homeName := g.home.name.GetOr(HomeDefault);
    var awayName := g.away.name.GetOr(AwayDefault);
    var h := g.homeScore.GetOr(0);
    var a := g.awayScore.GetOr(0);
    var isHome := NamesTeam(homeName, team);
    var isAway := NamesTeam(awayName, team);
    var o := OutcomeOf(isHome, isAway, h, a);
    var opponent := if isHome then awayName else homeName;
    team + " " + OutcomeWords(o) + " " + ScoreText(h, a) + " contre " + opponent + "."
  }
}

=== FILE: classify.dfy ===
/** The keyword classifier (`is_sports_question` in sports_query.py): a
    question is about a match result when its lower-cased text contains one of
    a handful of French keywords. */
module Classifier {
  import opened Text

  /** The keywords, in the order the source lists them. */
  const SportsKeywords: seq<string> :=
    ["score", "match", "r\U{E9}sultat", "resultat", "a fait", "ont fait"]

  /** Some keyword of `ks` occurs in `t`; `any(k in t for k in ks)`. */
  function AnyOccurs(ks: seq<string>, t: string): (b: bool)
    ensures b <==> exists k :: 0 <= k < |ks| && Occurs(ks[k], t)
  {
    if |ks| == 0 then
      false
    else
      var rest := AnyOccurs(ks[1..], t);
      assert forall k :: 0 < k < |ks| ==> ks[k] == ks[1..][k - 1];
      Contains(t, ks[0]) || rest
  }

  /** `is_sports_question`: false for the empty text, otherwise true exactly
      when one of the keywords occurs in the lower-cased text. */
  function IsSportsQuestion(text: string): (b: bool)
    ensures |text| == 0 ==> !b
    ensures |text| > 0 ==>
      (b <==> exists k :: 0 <= k < |SportsKeywords| && Occurs(SportsKeywords[k], LowerStr(text)))
  {
    if |text| == 0 then false else AnyOccurs(SportsKeywords, LowerStr(text))
  }

  /** One keyword is enough. */
  lemma KeywordMakesSportsQuestion(text: string, i: nat)
    requires i < |SportsKeywords| && Occurs(SportsKeywords[i], LowerStr(text))
    ensures IsSportsQuestion(text)
  {
    var j: nat :| IsPrefixAt(SportsKeywords[i], LowerStr(text), j);
    assert |text| > 0;
  }

  /** Adding text around a question never turns it from a sports question
      into a non-sports one. */
  lemma SportsQuestionMonotone(text: string, big: string)
    requires Occurs(text, big) && IsSportsQuestion(text)
    ensures IsSportsQuestion(big)
  {
    var k :| 0 <= k < |SportsKeywords| && Occurs(SportsKeywords[k], LowerStr(text));
    OccursLower(text, big);
    OccursTrans(SportsKeywords[k], LowerStr(text), LowerStr(big));
  }
}

=== FILE: common.dfy ===
/** Failure-compatible wrappers shared by every module of the model.
    `Option` stands for a Python value that may be `None` (or a dict key that
    may be missing); `Result` stands for a call that may raise. */
module Common {

  datatype Option<+T> = None | Some(value: T) {

    /** The wrapped value, or `default` when absent (Python's `d.get(k, default)`). */
    function GetOr(default: T): T {
      match this
      case Some(v) => v
      case None => default
    }
  }

  datatype Result<+T, +E> = Success(value: T) | Failure(error: E)
}

=== FILE: daily_content.dfy ===
/** The daily companion message (lanai_content.py): choosing the content
    sources from the mode, composing the message, picking a line from the
    content bank, and the hash-based history that keeps the cron from sending
    the same text twice. The GPT snippet, the random choices, the clock and
    the md5 digest are inputs. */
module DailyContent {
  import opened Common
  import opened Text

  /** The three recognised values of the mode setting, and any other. */
  datatype Mode = HybridMode | JsonMode | GptMode | OtherMode

  const Hybrid: string := "hybrid"
  const Json: string := "json"
  const Gpt: string := "gpt"

  /** The greeting used when GPT gives nothing but the bank does. */
  const Greeting: string := "Salam aleykum Mohamed,"

  const NoContent: string := "\U{274C} Aucun contenu disponible (ni GPT, ni JSON)."

  /** The mode setting, `None` when it is unset: lower-cased and compared
      with the three names, hybrid when unset. */
  function ParseMode(setting: Option<string>): (m: Mode)
    ensures setting.None? ==> m == HybridMode
    ensures setting.Some? ==> (m == HybridMode <==> LowerStr(setting.value) == Hybrid)
    ensures setting.Some? ==> (m == JsonMode <==> LowerStr(setting.value) == Json)
    ensures setting.Some? ==> (m == GptMode <==> LowerStr(setting.value) == Gpt)
  {
    var s := LowerStr(setting.GetOr(Hybrid));
    if s == Hybrid then HybridMode
    else if s == Json then JsonMode
    else if s == Gpt then GptMode
    else OtherMode
  }

  /** Without an OpenAI key, a mode that needs GPT falls back to the bank
      alone; every other mode, recognised or not, is kept. */
  function EffectiveMode(mode: Mode, hasKey: bool): (m: Mode)
    ensures !hasKey && (mode == GptMode || mode == HybridMode) ==> m == JsonMode
    ensures hasKey || (mode != GptMode && mode != HybridMode) ==> m == mode
    ensures m == GptMode || m == HybridMode ==> hasKey
  {
    if !hasKey && (mode == GptMode || mode == HybridMode) then JsonMode else mode
  }

  predicate UsesGpt(m: Mode) {
    m == GptMode || m == HybridMode
  }

  predicate UsesBank(m: Mode) {
    m == JsonMode || m == HybridMode
  }

  /** Python truthiness of an optional string: present and non-empty. */
  predicate Truthy(o: Option<string>) {
    o.Some? && |o.value| > 0
  }

  /** The composition rules at the end of `build_message`: both parts
      joined by a blank line, the GPT text alone, or the bank line after the
      greeting; an error when neither part is there. */
  function Compose(gptText: Option<string>, bankLine: Option<string>): (r: Result<string, string>)
    ensures r.Failure? <==> !Truthy(gptText) && !Truthy(bankLine)
    ensures r.Failure? ==> r.error == NoContent
    ensures r.Success? ==> SpaceFree(r.value)
  {
    if Truthy(gptText) && Truthy(bankLine) then
      Success(StripSpace(gptText.value + "\n\n" + bankLine.value))
    else if Truthy(gptText) then
      Success(StripSpace(gptText.value))
    else if Truthy(bankLine) then
      Success(StripSpace(Greeting + "\n\n" + bankLine.value))
    else
      Failure(NoContent)
  }

  /** The parts `build_message` composes: the GPT text if the effective mode
      asks for it, replaced by the greeting when it is missing while a bank
      line is there, and the bank line if the mode asks for it. */
  function Parts(m: Mode, gpt: Option<string>, bank: Option<string>): (r: (Option<string>, Option<string>))
    ensures !UsesGpt(m) ==> r.0.None?
    ensures !UsesBank(m) ==> r.1.None?
    ensures UsesBank(m) ==> r.1 == bank
    ensures UsesGpt(m) && Truthy(gpt) ==> r.0 == gpt
    ensures UsesGpt(m) && !Truthy(gpt) ==> (if UsesBank(m) && Truthy(bank) then r.0 == Some(Greeting) else !Truthy(r.0))
    ensures Truthy(r.0) || Truthy(r.1) <==> Contributes(m, gpt, bank)
  {
    var gptText := if UsesGpt(m) then gpt else None;
    var bankLine := if UsesBank(m) then bank else None;
    if UsesGpt(m) && !Truthy(gptText) && Truthy(bankLine) then (Some(Greeting), bankLine) else (gptText, bankLine)
  }

  /** Some source the mode asks for has non-empty text. */
  predicate Contributes(m: Mode, gpt: Option<string>, bank: Option<string>) {
    (UsesGpt(m) && Truthy(gpt)) || (UsesBank(m) && Truthy(bank))
  }

  /** `build_message`. `gpt` is what `generate_gpt_snippet` would return and
      `bank` what `pick_from_bank` would return; each is consulted only when
      the effective mode asks for it. The message fails exactly when neither
      source contributes. */
  function BuildMessage(mode: Mode, hasKey: bool, gpt: Option<string>, bank: Option<string>): (r: Result<string, string>)
    ensures
      var m := EffectiveMode(mode, hasKey);
      r.Failure? <==> !Contributes(m, gpt, bank)
    ensures r.Failure? ==> r.error == NoContent
    ensures r.Success? ==> SpaceFree(r.value)
  {
    var m := EffectiveMode(mode, hasKey);
    var p := Parts(m, gpt, bank);
    Compose(p.0, p.1)
  }

  /** The composition rules, one per row of the decision table: json mode,
      with or without a key, puts the greeting before the bank line; with a
      key, hybrid mode joins both texts or sends the GPT text alone when
      there is no bank line, and gpt mode sends the GPT text alone. */
  lemma DecisionTable(hasKey: bool, gpt: Option<string>, bank: Option<string>)
    ensures Truthy(bank) ==>
      BuildMessage(JsonMode, hasKey, gpt, bank) == Success(StripSpace(Greeting + "\n\n" + bank.value))
    ensures hasKey && Truthy(gpt) && Truthy(bank) ==>
      BuildMessage(HybridMode, hasKey, gpt, bank) == Success(StripSpace(gpt.value + "\n\n" + bank.value))
    ensures hasKey && Truthy(gpt) && !Truthy(bank) ==>
      BuildMessage(HybridMode, hasKey, gpt, bank) == Success(StripSpace(gpt.value))
    ensures hasKey && Truthy(gpt) ==> BuildMessage(GptMode, hasKey, gpt, bank) == Success(StripSpace(gpt.value))
  {
    if Truthy(bank) {
      assert Parts(JsonMode, gpt, bank) == (None, bank);
      assert BuildMessage(JsonMode, hasKey, gpt, bank) == Compose(None, bank);
    }
    if hasKey && Truthy(gpt) {
      assert Parts(HybridMode, gpt, bank) == (gpt, bank);
      assert BuildMessage(HybridMode, hasKey, gpt, bank) == Compose(gpt, bank);
      assert Parts(GptMode, gpt, bank) == (gpt, None);
      assert BuildMessage(GptMode, hasKey, gpt, bank) == Compose(gpt, None);
    }
  }

  /** Json mode never looks at the GPT text. */
  lemma JsonIgnoresGpt(hasKey: bool, g1: Option<string>, g2: Option<string>, bank: Option<string>)
    ensures BuildMessage(JsonMode, hasKey, g1, bank) == BuildMessage(JsonMode, hasKey, g2, bank)
  {
  }

  /** Gpt mode with a key never looks at the bank line (without a key it
      is json mode). */
  lemma GptIgnoresBank(gpt: Option<string>, b1: Option<string>, b2: Option<string>)
    ensures BuildMessage(GptMode, true, gpt, b1) == BuildMessage(GptMode, true, gpt, b2)
  {
  }

  /** Without a key, gpt and hybrid modes behave as json mode. */
  lemma NoKeyIsJson(mode: Mode, gpt: Option<string>, bank: Option<string>)
    requires mode == GptMode || mode == HybridMode
    ensures BuildMessage(mode, false, gpt, bank) == BuildMessage(JsonMode, false, gpt, bank)
  {
  }

  /** In hybrid mode a missing GPT text is replaced by the greeting, so the
      message is the one json mode gives. */
  lemma HybridWithoutGptIsJson(gpt: Option<string>, bank: Option<string>)
    requires !Truthy(gpt) && Truthy(bank)
    ensures BuildMessage(HybridMode, true, gpt, bank) == BuildMessage(JsonMode, true, gpt, bank)
    ensures BuildMessage(HybridMode, true, gpt, bank) == Success(StripSpace(Greeting + "\n\n" + bank.value))
  {
  }

  /** An unrecognised mode asks neither source and always fails. */
  lemma UnknownModeFails(hasKey: bool, gpt: Option<string>, bank: Option<string>)
    ensures BuildMessage(OtherMode, hasKey, gpt, bank) == Failure(NoContent)
  {
  }

  // ---------------------------------------------------------------------
  // Anti-repetition history

  /** One remembered message: when it was sent, the digest of its stripped
      text, and its first 120 characters. */
  datatype Entry = Entry(ts: int, hash: string, preview: string)

  /** The digest a text is remembered under: that of its stripped form. */
  function Key(text: string, hash: string -> string): string {
    hash(StripSpace(text))
  }

  /** `text[:120]`. */
  function Preview(text: string): (p: string)
    ensures |p| <= 120 && |p| <= |text| && p == text[..|p|]
    ensures |text| <= 120 ==> p == text
    ensures |text| > 120 ==> |p| == 120
  {
    if |text| <= 120 then text else text[..120]
  }

  /** Some entry of `hist` carries the digest `h`. */
  function HasHash(hist: seq<Entry>, h: string): (b: bool)
    ensures b <==> exists k :: 0 <= k < |hist| && hist[k].hash == h
  {
    if |hist| == 0 then
      false
    else
      var rest := HasHash(hist[1..], h);
      assert forall k :: 0 < k < |hist| ==> hist[k] == hist[1..][k - 1];
      hist[0].hash == h || rest
  }

  /** `already_sent`: some remembered entry has the text's digest. */
  function AlreadySent(text: string, hist: seq<Entry>, hash: string -> string): (b: bool)
    ensures b <==> exists k :: 0 <= k < |hist| && hist[k].hash == Key(text, hash)
  {
    HasHash(hist, Key(text, hash))
  }

  /** `remember`: appends exactly one entry, for the text, at time `now`. */
  function Remember(text: string, hist: seq<Entry>, now: int, hash: string -> string): (r: seq<Entry>)
    ensures |r| == |hist| + 1 && r[..|hist|] == hist
    ensures r[|hist|] == Entry(now, Key(text, hash), Preview(text))
  {
    hist + [Entry(now, Key(text, hash), Preview(text))]
  }

  /** A remembered text counts as already sent, and so does any text with
      the same stripped form. */
  lemma RememberedIsSent(text: string, other: string, hist: seq<Entry>, now: int, hash: string -> string)
    requires StripSpace(other) == StripSpace(text)
    ensures AlreadySent(text, Remember(text, hist, now, hash), hash)
    ensures AlreadySent(other, Remember(text, hist, now, hash), hash)
  {
    var r := Remember(text, hist, now, hash);
    assert r[|hist|].hash == Key(text, hash);
  }

  /** Remembering never forgets: what was sent stays sent. */
  lemma RememberKeepsSent(x: string, text: string, hist: seq<Entry>, now: int, hash: string -> string)
    requires AlreadySent(x, hist, hash)
    ensures AlreadySent(x, Remember(text, hist, now, hash), hash)
  {
    var k :| 0 <= k < |hist| && hist[k].hash == Key(x, hash);
    assert Remember(text, hist, now, hash)[k] == hist[k];
  }

  /** `prune_history`: the entries sent at or after `cutoff`, in order. */
  function PruneHistory(hist: seq<Entry>, cutoff: int): (r: seq<Entry>)
    ensures |r| <= |hist|
    ensures forall e :: e in r <==> e in hist && e.ts >= cutoff
  {
    if |hist| == 0 then
      []
    else
      var rest := PruneHistory(hist[1..], cutoff);
      assert forall e :: e in hist <==> e == hist[0] || e in hist[1..];
      if hist[0].ts >= cutoff then [hist[0]] + rest else rest
  }

  /** Pruning works entry by entry, so it keeps the original order: pruning
      a concatenation is concatenating the pruned parts. */
  lemma {:induction false} PruneAppend(a: seq<Entry>, b: seq<Entry>, cutoff: int)
    ensures PruneHistory(a + b, cutoff) == PruneHistory(a, cutoff) + PruneHistory(b, cutoff)
  {
    if |a| > 0 {
      assert (a + b)[1..] == a[1..] + b;
      PruneAppend(a[1..], b, cutoff);
    } else {
      assert a + b == b;
    }
  }

  /** Pruning twice with the same cutoff is pruning once. */
  lemma {:induction false} PruneIdempotent(hist: seq<Entry>, cutoff: int)
    ensures PruneHistory(PruneHistory(hist, cutoff), cutoff) == PruneHistory(hist, cutoff)
  {
    if |hist| > 0 {
      PruneIdempotent(hist[1..], cutoff);
      var rest := PruneHistory(hist[1..], cutoff);
      if hist[0].ts >= cutoff {
        assert ([hist[0]] + rest)[1..] == rest;
      }
    }
  }

  /** The anti-repetition step of the cron: `first` is the message built
      first and `alt` the one built again when `first` was already sent.
      A failure to build a needed message is the run's failure. On success
      the result is the message to send and the history remembering it. */
  function CronStep(first: Result<string, string>, alt: Result<string, string>,
                    hist: seq<Entry>, now: int, hash: string -> string): (r: Result<(string, seq<Entry>), string>)
    ensures first.Failure? ==> r == Failure(first.error)
    ensures first.Success? && !AlreadySent(first.value, hist, hash) ==> r.Success? && r.value.0 == first.value
    ensures first.Success? && AlreadySent(first.value, hist, hash) ==>
      && (alt.Failure? ==> r == Failure(alt.error))
      && (alt.Success? && !AlreadySent(alt.value, hist, hash) ==> r.Success? && r.value.0 == alt.value)
      && (alt.Success? && AlreadySent(alt.value, hist, hash) ==> r.Success? && r.value.0 == first.value)
    ensures r.Success? ==> first.Success? && (r.value.0 == first.value || (alt.Success? && r.value.0 == alt.value))
    ensures r.Success? && r.value.0 != first.value ==>
      AlreadySent(first.value, hist, hash) && !AlreadySent(alt.value, hist, hash)
    ensures r.Success? ==>
      && AlreadySent(r.value.0, r.value.1, hash) && |r.value.1| == |hist| + 1 && r.value.1[..|hist|] == hist
      && r.value.1[|hist|] == Entry(now, Key(r.value.0, hash), Preview(r.value.0))
  {
    match first
    case Failure(e) => Failure(e)
    case Success(f) =>
      if !AlreadySent(f, hist, hash) then
        RememberedIsSent(f, f, hist, now, hash);
        Success((f, Remember(f, hist, now, hash)))
      else
        match alt
        case Failure(e) => Failure(e)
        case Success(a) =>
          var final := if !AlreadySent(a, hist, hash) then a else f;
          RememberedIsSent(final, final, hist, now, hash);
          Success((final, Remember(final, hist, now, hash)))
  }

  // ---------------------------------------------------------------------
  // Content bank

  /** A value of the bank's JSON object: a list of texts or anything else. */
  datatype BankValue = List(items: seq<string>) | Other

  /** The categories `pick_from_bank` considers, in its order. */
  const Categories: seq<string> := ["hadith", "coran", "citations", "sante", "citations_fiables"]

  /** A category that is present and a non-empty list. */
  predicate Usable(bank: map<string, BankValue>, c: string) {
    c in bank && bank[c].List? && |bank[c].items| > 0
  }

  /** The label each category's line starts with. */
  function Prefix(c: string): string {
    if c == "hadith" then "\U{1F932} Hadith : "
    else if c == "coran" then "\U{1F4D6} Coran : "
    else if c == "citations" || c == "citations_fiables" then "\U{2728} Citation : "
    else if c == "sante" then "\U{1F48A} Sant\U{E9} : "
    else ""
  }

  /** The usable categories among `cs`, in order. */
  function UsableAmong(bank: map<string, BankValue>, cs: seq<string>): (r: seq<string>)
    ensures |r| <= |cs|
    ensures forall c :: c in r <==> c in cs && Usable(bank, c)
  {
    if |cs| == 0 then
      []
    else
      var rest := UsableAmong(bank, cs[1..]);
      assert forall c :: c in cs <==> c == cs[0] || c in cs[1..];
      if Usable(bank, cs[0]) then [cs[0]] + rest else rest
  }

  /** The scan is one category at a time, so the usable categories keep the
      order they are listed in: scanning a concatenation concatenates the
      scans. */
  lemma {:induction false} UsableAmongAppend(bank: map<string, BankValue>, a: seq<string>, b: seq<string>)
    ensures UsableAmong(bank, a + b) == UsableAmong(bank, a) + UsableAmong(bank, b)
  {
    if |a| > 0 {
      assert (a + b)[1..] == a[1..] + b;
      UsableAmongAppend(bank, a[1..], b);
    } else {
      assert a + b == b;
    }
  }

  /** `pick_from_bank`, with `random.choice` abstracted as an index reduced
      modulo the length of the list it picks from. */
  function PickFromBank(bank: map<string, BankValue>, catChoice: nat, textChoice: nat): (r: Option<string>)
    ensures r.None? <==> forall c :: c in Categories ==> !Usable(bank, c)
    ensures r.Some? ==> exists c, t ::
      c in Categories && Usable(bank, c) && t in bank[c].items && r.value == Prefix(c) + StripSpace(t)
  {
    var cats := UsableAmong(bank, Categories);
    if |cats| == 0 then
      None
    else
      var c := cats[catChoice % |cats|];
      assert c in cats;
      var items := bank[c].items;
      var t := items[textChoice % |items|];
      Some(Prefix(c) + StripSpace(t))
  }

  /** Every text of every usable category can come out of the bank. */
  lemma PickCanReachAll(bank: map<string, BankValue>, c: string, i: nat)
    requires c in Categories && Usable(bank, c) && i < |bank[c].items|
    ensures exists cc: nat, tc: nat :: PickFromBank(bank, cc, tc) == Some(Prefix(c) + StripSpace(bank[c].items[i]))
  {
    var cats := UsableAmong(bank, Categories);
    var j :| 0 <= j < |cats| && cats[j] == c;
    assert j % |cats| == j;
    assert i % |bank[c].items| == i;
    assert PickFromBank(bank, j, i) == Some(Prefix(c) + StripSpace(bank[c].items[i]));
  }
}

=== FILE: daily_results.dfy ===
/** The daily results digest (lanai_results.py): the season a date falls in
    for each competition, one line per complete game, an error line per
    failed request, and the message assembled from the two sections. The
    HTTP responses are inputs: a status code and the records of the
    response body. */
module DailyResults {
  import opened Common
  import opened Text

  /** The year in which the season containing `year`-`month` started, for a
      season that starts in month `first`. */
  function SeasonStart(year: int, month: int, first: int): int {
    if month >= first then year else year - 1
  }

  /** Month `m1` of year `y1` is not after month `m2` of year `y2`. */
  predicate NotAfter(y1: int, m1: int, y2: int, m2: int) {
    y1 < y2 || (y1 == y2 && m1 <= m2)
  }

  /** `saison_football`: the football season starts in July, and is named
      by the year it starts in: the latest year whose July is not after the
      given month. */
  function SaisonFootball(year: int, month: int): (r: int)
    requires 1 <= month <= 12
    ensures r == year || r == year - 1
    ensures NotAfter(r, 7, year, month) && !NotAfter(r + 1, 7, year, month)
  {
    SeasonStart(year, month, 7)
  }

  /** `saison_nba`: "S-T" where S is the year the season containing the
      date started (seasons start in October) and T = S + 1. */
  function SaisonNba(year: int, month: int): (r: string)
    requires 1 <= year && 1 <= month <= 12
    ensures exists i ::
      && 0 <= i < |r| && r[i] == '-'
      && Denotes(r[..i], SeasonStart(year, month, 10))
      && Denotes(r[i + 1..], SeasonStart(year, month, 10) + 1)
  {
    var start := SeasonStart(year, month, 10);
    var x := IntToString(start);
    var y := IntToString(start + 1);
    var r := x + "-" + y;
    assert r[..|x|] == x && r[|x| + 1..] == y;
    r
  }

  /** The NBA season string names the season containing the date: it starts
      in the given year from October on and in the year before otherwise. */
  lemma SaisonNbaReadsBack(year: int, month: int, s: int, t: int)
    requires 1 <= year && 1 <= month <= 12
    requires exists i ::
      && 0 <= i < |SaisonNba(year, month)| && SaisonNba(year, month)[i] == '-'
      && Denotes(SaisonNba(year, month)[..i], s) && Denotes(SaisonNba(year, month)[i + 1..], t)
    ensures s == (if month >= 10 then year else year - 1) && t == s + 1
  {
    var r := SaisonNba(year, month);
    var start := SeasonStart(year, month, 10);
    var i :| 0 <= i < |r| && r[i] == '-' && Denotes(r[..i], s) && Denotes(r[i + 1..], t);
    var j :| 0 <= j < |r| && r[j] == '-' && Denotes(r[..j], start) && Denotes(r[j + 1..], start + 1);
    assert start >= 0;
    DenotesUnique(r[..i], s, start);
    DenotesUnique(r[i + 1..], t, start + 1);
  }

  /** One game or fixture of a response body: team names and scores, each
      possibly missing (or `null`). */
  datatype ScoreRecord = ScoreRecord(
    home: Option<string>,
    away: Option<string>,
    homeScore: Option<int>,
    awayScore: Option<int>)

  /** An HTTP response: the status code and the records under "response". */
  datatype Response = Response(status: int, records: seq<ScoreRecord>)

  /** A football league the digest covers, by the name its lines carry
      (its id only goes into the request). */
  datatype League = League(name: string)

  /** The leagues of the football section, in the order they are queried. */
  const FootballLeagues: seq<League> :=
    [League("Ligue 1 (France)"), League("Premier League (Angleterre)")]

  predicate Complete(g: ScoreRecord) {
    g.home.Some? && g.away.Some? && g.homeScore.Some? && g.awayScore.Some?
  }

  /** "home hs - as away" for a complete record. */
  function ScoreLine(g: ScoreRecord): string
    requires Complete(g)
  {
    g.home.value + " " + IntToString(g.homeScore.value) + " - "
      + IntToString(g.awayScore.value) + " " + g.away.value
  }

  /** The lines of the complete records, in order, each followed by `suffix`. */
  function CompleteLines(gs: seq<ScoreRecord>, suffix: string): (ls: seq<string>)
    ensures |ls| <= |gs|
    ensures forall l :: l in ls <==> exists g :: g in gs && Complete(g) && l == ScoreLine(g) + suffix
    ensures (forall k :: 0 <= k < |gs| ==> Complete(gs[k])) ==> |ls| == |gs|
  {
    if |gs| == 0 then
      []
    else
      var rest := CompleteLines(gs[1..], suffix);
      assert forall g :: g in gs <==> g == gs[0] || g in gs[1..];
      assert forall k :: 0 < k < |gs| ==> gs[k] == gs[1..][k - 1];
      if Complete(gs[0]) then [ScoreLine(gs[0]) + suffix] + rest else rest
  }

  /** One record gives one line when it is complete and none otherwise. */
  lemma CompleteLinesOne(g: ScoreRecord, suffix: string)
    ensures CompleteLines([g], suffix) == if Complete(g) then [ScoreLine(g) + suffix] else []
  {
    assert [g][1..] == [];
  }

  /** The records are read one at a time, in order: the lines of a
      concatenation are the lines of the first part, then those of the
      second. */
  lemma {:induction false} CompleteLinesAppend(a: seq<ScoreRecord>, b: seq<ScoreRecord>, suffix: string)
    ensures CompleteLines(a + b, suffix) == CompleteLines(a, suffix) + CompleteLines(b, suffix)
  {
    if |a| > 0 {
      assert (a + b)[1..] == a[1..] + b;
      assert (a + b)[0] == a[0];
      CompleteLinesAppend(a[1..], b, suffix);
    } else {
      assert a + b == b;
    }
  }

  /** The NBA section's lines: a line per complete game when the request
      succeeded, and the single error line otherwise. */
  function NbaLines(r: Response): (ls: seq<string>)
    ensures r.status != 200 ==> ls == [ErrorLine("NBA")]
    ensures r.status == 200 ==>
      forall l :: l in ls <==> exists g :: g in r.records && Complete(g) && l == ScoreLine(g)
    ensures r.status == 200 ==> ls == CompleteLines(r.records, "")
  {
    if r.status == 200 then CompleteLines(r.records, "") else [ErrorLine("NBA")]
  }

  /** The line that stands for a failed request about `what`. */
  function ErrorLine(what: string): string {
    "(erreur API " + what + ")"
  }

  /** What a football line carries after the score: the league's name. */
  function LeagueSuffix(lg: League): string {
    " (" + lg.name + ")"
  }

  /** The lines one league contributes to the football section. */
  function LeagueLines(lg: League, r: Response): (ls: seq<string>)
    ensures r.status != 200 ==> ls == [ErrorLine(lg.name)]
    ensures r.status == 200 ==>
      forall l :: l in ls <==> exists g :: g in r.records && Complete(g) && l == ScoreLine(g) + LeagueSuffix(lg)
    ensures r.status == 200 ==> ls == CompleteLines(r.records, LeagueSuffix(lg))
  {
    if r.status == 200 then CompleteLines(r.records, LeagueSuffix(lg)) else [ErrorLine(lg.name)]
  }

  /** The football section's lines: each league's lines, leagues in order. */
  function FootballLines(lgs: seq<League>, rs: seq<Response>): (ls: seq<string>)
    requires |rs| == |lgs|
    ensures forall l :: l in ls <==> exists k :: 0 <= k < |lgs| && l in LeagueLines(lgs[k], rs[k])
  {
    if |lgs| == 0 then
      []
    else
      var rest := FootballLines(lgs[1..], rs[1..]);
      assert forall k :: 0 < k < |lgs| ==> lgs[k] == lgs[1..][k - 1] && rs[k] == rs[1..][k - 1];
      LeagueLines(lgs[0], rs[0]) + rest
  }

  /** The leagues are queried one at a time, in order: the lines of a
      concatenation of leagues are the lines of the first leagues, then
      those of the others. */
  lemma {:induction false} FootballLinesAppend(a: seq<League>, ra: seq<Response>, b: seq<League>, rb: seq<Response>)
    requires |ra| == |a| && |rb| == |b|
    ensures FootballLines(a + b, ra + rb) == FootballLines(a, ra) + FootballLines(b, rb)
  {
    if |a| > 0 {
      assert (a + b)[1..] == a[1..] + b && (ra + rb)[1..] == ra[1..] + rb;
      assert (a + b)[0] == a[0] && (ra + rb)[0] == ra[0];
      FootballLinesAppend(a[1..], ra[1..], b, rb);
    } else {
      assert a + b == b && ra + rb == rb;
    }
  }

  /** One league contributes exactly its own lines. */
  lemma FootballLinesOne(lg: League, r: Response)
    ensures FootballLines([lg], [r]) == LeagueLines(lg, r)
  {
    assert [lg][1..] == [] && [r][1..] == [];
  }

  /** `sep.join(parts)`. */
  function Join(parts: seq<string>, sep: string): (s: string)
    ensures |parts| == 1 ==> s == parts[0]
    ensures forall k :: 0 <= k < |parts| ==> Occurs(parts[k], s)
  {
    if |parts| == 0 then
      ""
    else if |parts| == 1 then
      assert IsPrefixAt(parts[0], parts[0], 0);
      parts[0]
    else
      var rest := Join(parts[1..], sep);
      var s := parts[0] + sep + rest;
      assert IsPrefixAt(parts[0], s, 0);
      forall k | 1 <= k < |parts|
        ensures Occurs(parts[k], s)
      {
        assert parts[k] == parts[1..][k - 1];
        var i: nat :| IsPrefixAt(parts[k], rest, i);
        assert s[|parts[0]| + |sep| + i..][..|parts[k]|] == rest[i..][..|parts[k]|];
        assert IsPrefixAt(parts[k], s, |parts[0]| + |sep| + i);
      }
      s
  }

  /** `s.split(c)` for a one-character separator: the pieces between the
      occurrences of `c`, of which there is always at least one. */
  function Split(s: string, c: char): (parts: seq<string>)
    ensures |parts| > 0
    decreases |s|
  {
    if |s| == 0 then
      [""]
    else
      var rest := Split(s[1..], c);
      if s[0] == c then [""] + rest else [[s[0]] + rest[0]] + rest[1..]
  }

  /** `c` is not a character of `s`. */
  predicate Free(s: string, c: char) {
    forall k :: 0 <= k < |s| ==> s[k] != c
  }

  lemma {:induction false} SplitFree(x: string, c: char)
    requires Free(x, c)
    ensures Split(x, c) == [x]
    decreases |x|
  {
    if |x| > 0 {
      SplitFree(x[1..], c);
      assert [x[0]] + x[1..] == x;
    }
  }

  lemma {:induction false} SplitAppend(x: string, c: char, y: string)
    requires Free(x, c)
    ensures Split(x + [c] + y, c) == [x] + Split(y, c)
    decreases |x|
  {
    var s := x + [c] + y;
    if |x| == 0 {
      assert s == [c] + y && s[1..] == y;
    } else {
      assert s[1..] == x[1..] + [c] + y;
      SplitAppend(x[1..], c, y);
      assert [x[0]] + x[1..] == x;
    }
  }

  /** Splitting the lines joined by a character none of them contains gives
      the lines back. */
  lemma {:induction false} SplitJoin(parts: seq<string>, c: char)
    requires |parts| > 0 && forall k :: 0 <= k < |parts| ==> Free(parts[k], c)
    ensures Split(Join(parts, [c]), c) == parts
    decreases |parts|
  {
    if |parts| == 1 {
      SplitFree(parts[0], c);
    } else {
      var rest := parts[1..];
      assert forall k :: 0 <= k < |rest| ==> rest[k] == parts[k + 1];
      SplitJoin(rest, c);
      SplitAppend(parts[0], c, Join(rest, [c]));
      assert [parts[0]] + rest == parts;
    }
  }

  /** `" - " + line` for every line. */
  function Bullets(ls: seq<string>): (bs: seq<string>)
    ensures |bs| == |ls|
    ensures forall k :: 0 <= k < |ls| ==> bs[k] == " - " + ls[k]
  {
    seq(|ls|, k requires 0 <= k < |ls| => " - " + ls[k])
  }

  /** A section body: the bulleted lines joined by newlines, or `empty`
      when there are no lines. */
  function Section(ls: seq<string>, empty: string): (s: string)
    ensures |ls| == 0 ==> s == empty
    ensures forall k :: 0 <= k < |ls| ==> Occurs(" - " + ls[k], s)
  {
    if |ls| == 0 then empty else Join(Bullets(ls), "\n")
  }

  /** The fixed lines of the digest. */
  const Hello: string := "\U{1F93E} Salam aleykum Mohamed,"
  const NbaHeading: string := "\U{1F3C0} NBA :"
  const NbaNone: string := " - Aucun match."
  const FootballHeading: string := "\U{26BD} Football europ\U{E9}en :"
  const FootballNone: string := " - Aucun match important."

  const NbaTitle: string := NbaHeading + "\n"
  const NbaEmpty: string := NbaNone + "\n"
  const FootballTitle: string := FootballHeading + "\n"
  const FootballEmpty: string := FootballNone + "\n"

  /** The line naming the day the results are for. */
  function DateLine(date: string): string {
    "Voici les r\U{E9}sultats du " + date + " :"
  }

  /** A non-empty section splits, line by line, into the bullets of its
      lines, when no line holds a newline of its own. */
  lemma SectionLines(ls: seq<string>, empty: string)
    requires |ls| > 0 && forall k :: 0 <= k < |ls| ==> Free(ls[k], '\n')
    ensures Split(Section(ls, empty), '\n') == Bullets(ls)
  {
    var bs := Bullets(ls);
    forall k | 0 <= k < |bs|
      ensures Free(bs[k], '\n')
    {
      assert bs[k] == " - " + ls[k];
    }
    SplitJoin(bs, '\n');
  }

  /** The NBA part of the digest: its title, its section and a blank line. */
  function NbaPart(nba: seq<string>): (p: string)
    ensures forall k :: 0 <= k < |nba| ==> Occurs(" - " + nba[k], p)
    ensures |nba| == 0 ==> p == NbaTitle + NbaEmpty + "\n"
  {
    var section := Section(nba, NbaEmpty);
    OccursIn3(NbaTitle, section, "\n");
    NbaTitle + section + "\n"
  }

  /** The football part of the digest: its title and its section. */
  function FootballPart(football: seq<string>): (p: string)
    ensures forall k :: 0 <= k < |football| ==> Occurs(" - " + football[k], p)
    ensures |football| == 0 ==> p == FootballTitle + FootballEmpty
  {
    var section := Section(football, FootballEmpty);
    OccursAfter(FootballTitle, section);
    FootballTitle + section
  }

  /** The digest message for the day `date`: every line of either section
      appears in it as a bullet. `DigestSplit` gives its exact layout, line
      by line. */
  function Digest(date: string, nba: seq<string>, football: seq<string>): (m: string)
    ensures forall k :: 0 <= k < |nba| ==> Occurs(" - " + nba[k], m)
    ensures forall k :: 0 <= k < |football| ==> Occurs(" - " + football[k], m)
  {
    var header := Hello + "\n" + DateLine(date) + "\n\n";
    var nbaPart := NbaPart(nba);
    var footPart := FootballPart(football);
    OccursIn3(header, nbaPart, footPart);
    header + nbaPart + footPart
  }

  /** The digest of a day's responses: the NBA response and one response
      per football league, in the order of `FootballLeagues`. */
  function DailyDigest(date: string, nba: Response, football: seq<Response>): (m: string)
    requires |football| == |FootballLeagues|
    ensures
      var nl := NbaLines(nba);
      var fl := FootballLines(FootballLeagues, football);
      Free(date, '\n') && (forall k :: 0 <= k < |nl| ==> Free(nl[k], '\n'))
        && (forall k :: 0 <= k < |fl| ==> Free(fl[k], '\n'))
      ==> Split(m, '\n') == DigestLines(date, nl, fl)
  {
    var nl := NbaLines(nba);
    var fl := FootballLines(FootballLeagues, football);
    if Free(date, '\n') && (forall k :: 0 <= k < |nl| ==> Free(nl[k], '\n'))
        && (forall k :: 0 <= k < |fl| ==> Free(fl[k], '\n')) then
      DigestSplit(date, nl, fl);
      Digest(date, nl, fl)
    else
      Digest(date, nl, fl)
  }

  /** The text lines of a section: its bullets, or its placeholder followed
      by the empty line its own newline leaves. */
  function SectionText(ls: seq<string>, none: string): seq<string> {
    if |ls| == 0 then [none, ""] else Bullets(ls)
  }

  /** The digest, line by line: the greeting, the date line, a blank line,
      the NBA heading and section, then the football heading and section. */
  function DigestLines(date: string, nba: seq<string>, football: seq<string>): seq<string> {
    [Hello, DateLine(date), "", NbaHeading] + SectionText(nba, NbaNone)
      + [FootballHeading] + SectionText(football, FootballNone)
  }

  /** Lines joined by a separator none of them holds, then the separator,
      then more text: the lines split off first, in order. */
  lemma {:induction false} SplitJoinThen(parts: seq<string>, c: char, y: string)
    requires |parts| > 0 && forall k :: 0 <= k < |parts| ==> Free(parts[k], c)
    ensures Split(Join(parts, [c]) + [c] + y, c) == parts + Split(y, c)
    decreases |parts|
  {
    if |parts| == 1 {
      SplitAppend(parts[0], c, y);
    } else {
      var rest := parts[1..];
      assert forall k :: 0 <= k < |rest| ==> rest[k] == parts[k + 1];
      SplitJoinThen(rest, c, y);
      var j := Join(rest, [c]);
      assert Join(parts, [c]) == parts[0] + [c] + j;
      Reassociate(parts[0], [c], j, y);
      SplitAppend(parts[0], c, j + [c] + y);
      assert [parts[0]] + rest == parts;
    }
  }

  lemma Reassociate(a: string, sep: string, b: string, y: string)
    ensures a + sep + b + sep + y == a + sep + (b + sep + y)
  {
  }

  /** The bullets of lines that hold no newline hold none either. */
  lemma BulletsFree(ls: seq<string>)
    requires forall k :: 0 <= k < |ls| ==> Free(ls[k], '\n')
    ensures forall k :: 0 <= k < |ls| ==> Free(Bullets(ls)[k], '\n')
  {
    forall k | 0 <= k < |ls|
      ensures Free(Bullets(ls)[k], '\n')
    {
      assert Bullets(ls)[k] == " - " + ls[k];
    }
  }

  /** A section followed by a newline and more text splits into the
      section's text lines and then the rest. */
  lemma SectionThen(ls: seq<string>, none: string, y: string)
    requires Free(none, '\n') && forall k :: 0 <= k < |ls| ==> Free(ls[k], '\n')
    ensures Split(Section(ls, none + "\n") + "\n" + y, '\n') == SectionText(ls, none) + Split(y, '\n')
  {
    if |ls| == 0 {
      assert Section(ls, none + "\n") + "\n" + y == none + ['\n'] + ("" + ['\n'] + y);
      SplitAppend(none, '\n', "" + ['\n'] + y);
      SplitAppend("", '\n', y);
    } else {
      BulletsFree(ls);
      SplitJoinThen(Bullets(ls), '\n', y);
    }
  }

  /** A section at the end of the text splits into its text lines. */
  lemma SectionLast(ls: seq<string>, none: string)
    requires Free(none, '\n') && forall k :: 0 <= k < |ls| ==> Free(ls[k], '\n')
    ensures Split(Section(ls, none + "\n"), '\n') == SectionText(ls, none)
  {
    if |ls| == 0 {
      assert none + "\n" == none + ['\n'] + "";
      SplitAppend(none, '\n', "");
    } else {
      SectionLines(ls, none + "\n");
    }
  }

  /** The date line holds a newline only if the date does. */
  lemma DateLineFree(date: string)
    requires Free(date, '\n')
    ensures Free(DateLine(date), '\n')
  {
    var pre := "Voici les r\U{E9}sultats du ";
    var d := DateLine(date);
    forall k | 0 <= k < |d|
      ensures d[k] != '\n'
    {
      if |pre| <= k < |pre| + |date| {
        assert d[k] == date[k - |pre|];
      }
    }
  }

  /** The digest as its fixed lines and its two sections, with the newlines
      between them. */
  lemma DigestShape(date: string, nba: seq<string>, football: seq<string>)
    ensures Digest(date, nba, football)
      == Hello + "\n" + (DateLine(date) + "\n" + ("" + "\n" + (NbaHeading + "\n"
         + (Section(nba, NbaEmpty) + "\n" + (FootballHeading + "\n" + Section(football, FootballEmpty))))))
  {
    Regroup(Hello, DateLine(date), NbaHeading, Section(nba, NbaEmpty), FootballHeading, Section(football, FootballEmpty));
  }

  /** The digest's pieces, regrouped from the right. */
  lemma Regroup(h: string, d: string, n: string, s1: string, f: string, s2: string)
    ensures (h + "\n" + d + "\n\n") + (n + "\n" + s1 + "\n") + (f + "\n" + s2)
      == h + "\n" + (d + "\n" + ("" + "\n" + (n + "\n" + (s1 + "\n" + (f + "\n" + s2)))))
  {
    var nl := "\n";
    assert "\n\n" == nl + nl;
    assert "" + nl == nl;
  }

  /** Four separator-free lines, each followed by the separator, split off
      first and in order. */
  lemma SplitFour(h: string, d: string, e: string, n: string, c: char, y: string)
    requires Free(h, c) && Free(d, c) && Free(e, c) && Free(n, c)
    ensures Split(h + [c] + (d + [c] + (e + [c] + (n + [c] + y))), c) == [h, d, e, n] + Split(y, c)
  {
    SplitAppend(n, c, y);
    SplitAppend(e, c, n + [c] + y);
    SplitAppend(d, c, e + [c] + (n + [c] + y));
    SplitAppend(h, c, d + [c] + (e + [c] + (n + [c] + y)));
  }

  /** The football heading and section split into the heading and the
      section's text lines. */
  lemma FootballSplit(football: seq<string>)
    requires forall k :: 0 <= k < |football| ==> Free(football[k], '\n')
    ensures Split(FootballHeading + "\n" + Section(football, FootballEmpty), '\n')
      == [FootballHeading] + SectionText(football, FootballNone)
  {
    SectionLast(football, FootballNone);
    SplitAppend(FootballHeading, '\n', Section(football, FootballEmpty));
  }

  /** Read line by line, the digest is exactly `DigestLines`: the header,
      the NBA part before the football part, each section's bullets in
      order or its placeholder, when neither the date nor any line holds a
      newline. */
  lemma DigestSplit(date: string, nba: seq<string>, football: seq<string>)
    requires Free(date, '\n')
    requires forall k :: 0 <= k < |nba| ==> Free(nba[k], '\n')
    requires forall k :: 0 <= k < |football| ==> Free(football[k], '\n')
    ensures Split(Digest(date, nba, football), '\n') == DigestLines(date, nba, football)
  {
    var tail := FootballHeading + "\n" + Section(football, FootballEmpty);
    var mid := Section(nba, NbaEmpty) + "\n" + tail;
    FootballSplit(football);
    SectionThen(nba, NbaNone, tail);
    DateLineFree(date);
    SplitFour(Hello, DateLine(date), "", NbaHeading, '\n', mid);
    DigestShape(date, nba, football);
  }

  /** What occurs in one of three consecutive pieces occurs in the whole. */
  lemma OccursIn3(a: string, b: string, c: string)
    ensures forall x :: Occurs(x, b) ==> Occurs(x, a + b + c)
    ensures forall x :: Occurs(x, c) ==> Occurs(x, a + b + c)
  {
    forall x | Occurs(x, b)
      ensures Occurs(x, a + b + c)
    {
      var i: nat :| IsPrefixAt(x, b, i);
      assert (a + b + c)[|a| + i..|a| + i + |x|] == b[i..i + |x|];
      assert IsPrefixAt(x, a + b + c, |a| + i);
    }
    forall x | Occurs(x, c)
      ensures Occurs(x, a + b + c)
    {
      var i: nat :| IsPrefixAt(x, c, i);
      assert (a + b + c)[|a| + |b| + i..|a| + |b| + i + |x|] == c[i..i + |x|];
      assert IsPrefixAt(x, a + b + c, |a| + |b| + i);
    }
  }

  /** What occurs in `b` occurs in `a + b`. */
  lemma OccursAfter(a: string, b: string)
    ensures forall x :: Occurs(x, b) ==> Occurs(x, a + b)
  {
    forall x | Occurs(x, b)
      ensures Occurs(x, a + b)
    {
      var i: nat :| IsPrefixAt(x, b, i);
      assert (a + b)[|a| + i..|a| + i + |x|] == b[i..i + |x|];
      assert IsPrefixAt(x, a + b, |a| + i);
    }
  }
}

=== FILE: matcher.dfy ===
/** A backtracking matcher for the regular expressions the team-name extractor
    uses. Each of those expressions is a plain concatenation of atoms (a
    literal, an optional one-character class, a greedy run of whitespace, an
    alternation of literals that may be optional, and a lazy `.+?`), all under
    the `(?i)` flag. Python's `re.search` tries start positions from left to
    right, and at each start explores the atoms depth first, each atom offering
    its possible end positions in priority order (greedy runs longest first,
    the lazy run shortest first, alternatives left to right, an optional group
    before its omission). `Search` does exactly that; the lemmas show it finds
    a match iff one exists, and the leftmost one. */
module Matcher {
  import opened Common
  import opened Text

  datatype Atom =
    | Lit(text: string)                          // a literal
    | OptClass(chars: set<char>)                 // `[...]?`
    | Spaces(min: nat)                           // `\s*` (min 0) or `\s+` (min 1)
    | Choice(alts: seq<string>, optional: bool)  // `(a|b|...)` or `(a|b|...)?`
    | LazyAny                                    // `.+?`

  /** Case-insensitive equality of two characters, as under `(?i)`. */
  predicate EqI(a: char, b: char) {
    Lower(a) == Lower(b)
  }

  /** `lit` sits at position `j` of `s`, ignoring case. */
  predicate LitAt(s: string, j: nat, lit: string) {
    j + |lit| <= |s| && forall k :: 0 <= k < |lit| ==> EqI(s[j + k], lit[k])
  }

  predicate NotNewline(c: char) {
    c != '\n'
  }

  /** Length of the longest run of characters satisfying `p` starting at `j`. */
  function Run(s: string, j: nat, p: char -> bool): (n: nat)
    requires j <= |s|
    ensures j + n <= |s|
    ensures forall k :: j <= k < j + n ==> p(s[k])
    ensures j + n == |s| || !p(s[j + n])
    decreases |s| - j
  {
    if j < |s| && p(s[j]) then 1 + Run(s, j + 1, p) else 0
  }

  /** `[hi, hi - 1, ..., lo]`: the ends a greedy run tries, longest first. */
  function Down(hi: nat, lo: nat): (r: seq<nat>)
    requires lo <= hi
    ensures |r| == hi - lo + 1
    ensures forall k :: 0 <= k < |r| ==> r[k] == hi - k
    decreases hi - lo
  {
    if hi == lo then [lo] else [hi] + Down(hi - 1, lo)
  }

  /** `[lo, lo + 1, ..., hi]`: the ends a lazy run tries, shortest first. */
  function Up(lo: nat, hi: nat): (r: seq<nat>)
    ensures |r| == if lo <= hi then hi - lo + 1 else 0
    ensures forall k :: 0 <= k < |r| ==> r[k] == lo + k
    decreases if lo <= hi then hi - lo + 1 else 0
  {
    if lo > hi then [] else [lo] + Up(lo + 1, hi)
  }

  /** Ends of the alternatives that match at `j`, in the order they are tried. */
  function AltEnds(alts: seq<string>, s: string, j: nat): (r: seq<nat>)
    ensures forall e :: e in r <==> exists k :: 0 <= k < |alts| && LitAt(s, j, alts[k]) && e == j + |alts[k]|
    ensures forall k :: 0 <= k < |r| ==> j <= r[k] <= |s|
  {
    if |alts| == 0 then
      []
    else
      var rest := AltEnds(alts[1..], s, j);
      assert forall k :: 0 < k < |alts| ==> alts[k] == alts[1..][k - 1];
      (if LitAt(s, j, alts[0]) then [j + |alts[0]|] else []) + rest
  }

  /** The end positions atom `a` can reach from `j`, in priority order. */
  function Candidates(a: Atom, s: string, j: nat): (r: seq<nat>)
    requires j <= |s|
    ensures forall k :: 0 <= k < |r| ==> j <= r[k] <= |s|
  {
    match a
    case Lit(t) => if LitAt(s, j, t) then [j + |t|] else []
    case OptClass(cs) => (if j < |s| && s[j] in cs then [j + 1] else []) + [j]
    case Spaces(m) =>
      var n := Run(s, j, IsSpace);
      if n < m then [] else Down(j + n, j + m)
    case Choice(alts, opt) => AltEnds(alts, s, j) + (if opt then [j] else [])
    case LazyAny => Up(j + 1, j + Run(s, j, NotNewline))
  }

  /** What it means for atom `a` to match `s[j..e]`, independently of the
      order in which the engine tries the possibilities. */
  ghost predicate AtomMatches(a: Atom, s: string, j: nat, e: nat) {
    && j <= e <= |s|
    && match a
       case Lit(t) => e == j + |t| && LitAt(s, j, t)
       case OptClass(cs) => e == j || (e == j + 1 && s[j] in cs)
       case Spaces(m) => j + m <= e && forall k :: j <= k < e ==> IsSpace(s[k])
       case Choice(alts, opt) =>
         || (opt && e == j)
         || exists k :: 0 <= k < |alts| && LitAt(s, j, alts[k]) && e == j + |alts[k]|
       case LazyAny => j < e && forall k :: j <= k < e ==> s[k] != '\n'
  }

  /** The engine offers an end position iff the atom matches up to it. */
  lemma CandidatesExact(a: Atom, s: string, j: nat, e: nat)
    requires j <= |s|
    ensures e in Candidates(a, s, j) <==> AtomMatches(a, s, j, e)
  {
    match a
    case Lit(t) =>
    case OptClass(cs) =>
    case Spaces(m) =>
      var n := Run(s, j, IsSpace);
      if n >= m && j + m <= e <= j + n {
        assert Candidates(a, s, j)[j + n - e] == e;
      }
    case Choice(alts, opt) =>
    case LazyAny =>
      var n := Run(s, j, NotNewline);
      if j < e <= j + n {
        assert Candidates(a, s, j)[e - j - 1] == e;
      }
  }

  /** `b` lists the boundaries of a match of the atoms `p[i..]`: atom
      `p[i + k]` spans `s[b[k]..b[k + 1]]`. */
  ghost predicate IsMatchFrom(p: seq<Atom>, i: nat, s: string, b: seq<nat>) {
    && i <= |p|
    && |b| == |p| - i + 1
    && forall k :: 0 <= k < |p| - i ==> AtomMatches(p[i + k], s, b[k], b[k + 1])
  }

  /** `b` lists the boundaries of a match of the whole of `p`. */
  ghost predicate IsMatch(p: seq<Atom>, s: string, b: seq<nat>) {
    IsMatchFrom(p, 0, s, b)
  }

  /** Depth-first search for a match of the atoms `p[i..]` starting at `j`. */
  function Match(p: seq<Atom>, i: nat, s: string, j: nat): Option<seq<nat>>
    requires i <= |p| && j <= |s|
    decreases |p| - i, 1, 0
  {
    if i == |p| then
      Some([j])
    else
      TryEach(p, i, s, j, Candidates(p[i], s, j))
  }

  /** Tries the remaining candidate ends `cs` of atom `p[i]` in order. */
  function TryEach(p: seq<Atom>, i: nat, s: string, j: nat, cs: seq<nat>): Option<seq<nat>>
    requires i < |p| && j <= |s|
    requires forall k :: 0 <= k < |cs| ==> cs[k] <= |s|
    decreases |p| - i, 0, |cs|
  {
    if |cs| == 0 then
      None
    else
      match Match(p, i + 1, s, cs[0])
      case Some(b) => Some([j] + b)
      case None => TryEach(p, i, s, j, cs[1..])
  }

  /** A match of the later atoms extended by a match of atom `p[i]`. */
  lemma ConsMatch(p: seq<Atom>, i: nat, s: string, j: nat, b: seq<nat>)
    requires i < |p| && |b| > 0
    requires AtomMatches(p[i], s, j, b[0]) && IsMatchFrom(p, i + 1, s, b)
    ensures IsMatchFrom(p, i, s, [j] + b)
  {
    var c := [j] + b;
    forall k | 0 <= k < |p| - i
      ensures AtomMatches(p[i + k], s, c[k], c[k + 1])
    {
      if k > 0 {
        assert p[i + k] == p[i + 1 + (k - 1)] && c[k] == b[k - 1] && c[k + 1] == b[k];
      }
    }
  }

  /** Dropping the first boundary of a match leaves a match of the later atoms. */
  lemma UnconsMatch(p: seq<Atom>, i: nat, s: string, b: seq<nat>)
    requires i < |p| && IsMatchFrom(p, i, s, b)
    ensures AtomMatches(p[i], s, b[0], b[1]) && IsMatchFrom(p, i + 1, s, b[1..])
  {
    forall k | 0 <= k < |p| - (i + 1)
      ensures AtomMatches(p[i + 1 + k], s, b[1..][k], b[1..][k + 1])
    {
      assert AtomMatches(p[i + (k + 1)], s, b[k + 1], b[k + 2]);
    }
  }

  /** What `Match` finds is a match starting at `j`. */
  lemma {:induction false} MatchSound(p: seq<Atom>, i: nat, s: string, j: nat)
    requires i <= |p| && j <= |s|
    ensures Match(p, i, s, j).Some? ==> IsMatchFrom(p, i, s, Match(p, i, s, j).value) && Match(p, i, s, j).value[0] == j
    decreases |p| - i, 1, 0
  {
    if i < |p| {
      var cs := Candidates(p[i], s, j);
      forall k | 0 <= k < |cs|
        ensures AtomMatches(p[i], s, j, cs[k])
      {
        CandidatesExact(p[i], s, j, cs[k]);
      }
      TryEachSound(p, i, s, j, cs);
    }
  }

  lemma {:induction false} TryEachSound(p: seq<Atom>, i: nat, s: string, j: nat, cs: seq<nat>)
    requires i < |p| && j <= |s|
    requires forall k :: 0 <= k < |cs| ==> cs[k] <= |s| && AtomMatches(p[i], s, j, cs[k])
    ensures TryEach(p, i, s, j, cs).Some? ==>
      IsMatchFrom(p, i, s, TryEach(p, i, s, j, cs).value) && TryEach(p, i, s, j, cs).value[0] == j
    decreases |p| - i, 0, |cs|
  {
    if |cs| > 0 {
      MatchSound(p, i + 1, s, cs[0]);
      match Match(p, i + 1, s, cs[0])
      case Some(b) => ConsMatch(p, i, s, j, b);
      case None => TryEachSound(p, i, s, j, cs[1..]);
    }
  }

  /** When `Match` gives up, no match of `p[i..]` starts at `j`. */
  lemma {:induction false} MatchComplete(p: seq<Atom>, i: nat, s: string, j: nat)
    requires i <= |p| && j <= |s|
    ensures Match(p, i, s, j).None? ==> forall b :: |b| > 0 && b[0] == j ==> !IsMatchFrom(p, i, s, b)
    decreases |p| - i, 1, 0
  {
    if i < |p| {
      var cs := Candidates(p[i], s, j);
      TryEachComplete(p, i, s, j, cs);
      forall b | |b| > 0 && b[0] == j && IsMatchFrom(p, i, s, b)
        ensures b[1] in cs
      {
        UnconsMatch(p, i, s, b);
        CandidatesExact(p[i], s, j, b[1]);
      }
    }
  }

  lemma {:induction false} TryEachComplete(p: seq<Atom>, i: nat, s: string, j: nat, cs: seq<nat>)
    requires i < |p| && j <= |s|
    requires forall k :: 0 <= k < |cs| ==> cs[k] <= |s|
    ensures TryEach(p, i, s, j, cs).None? ==>
      forall b :: |b| > 1 && b[0] == j && b[1] in cs ==> !IsMatchFrom(p, i, s, b)
    decreases |p| - i, 0, |cs|
  {
    if |cs| > 0 && TryEach(p, i, s, j, cs).None? {
      MatchComplete(p, i + 1, s, cs[0]);
      TryEachComplete(p, i, s, j, cs[1..]);
      forall b | |b| > 1 && b[0] == j && b[1] in cs && IsMatchFrom(p, i, s, b)
        ensures false
      {
        UnconsMatch(p, i, s, b);
      }
    }
  }

  /** The match the engine finds from `j` when the first `skip` candidate ends
      of atom `p[i]` lead nowhere and the next one leads to `b`. */
  lemma {:induction false} MatchVia(p: seq<Atom>, i: nat, s: string, j: nat, skip: nat, b: seq<nat>)
    requires i < |p| && j <= |s|
    requires skip < |Candidates(p[i], s, j)|
    requires forall k :: 0 <= k < skip ==> Match(p, i + 1, s, Candidates(p[i], s, j)[k]).None?
    requires Match(p, i + 1, s, Candidates(p[i], s, j)[skip]) == Some(b)
    ensures Match(p, i, s, j) == Some([j] + b)
  {
    var cs := Candidates(p[i], s, j);
    var n := 0;
    while n < skip
      invariant 0 <= n <= skip
      invariant TryEach(p, i, s, j, cs) == TryEach(p, i, s, j, cs[n..])
    {
      assert cs[n..][0] == cs[n];
      assert cs[n..][1..] == cs[n + 1..];
      n := n + 1;
    }
    assert cs[skip..][0] == cs[skip];
  }

  /** The engine finds nothing from `j` when every candidate end of atom
      `p[i]` leads nowhere. */
  lemma {:induction false} MatchNone(p: seq<Atom>, i: nat, s: string, j: nat)
    requires i < |p| && j <= |s|
    requires forall k :: 0 <= k < |Candidates(p[i], s, j)| ==> Match(p, i + 1, s, Candidates(p[i], s, j)[k]).None?
    ensures Match(p, i, s, j).None?
  {
    var cs := Candidates(p[i], s, j);
    var n := 0;
    while n < |cs|
      invariant 0 <= n <= |cs|
      invariant TryEach(p, i, s, j, cs) == TryEach(p, i, s, j, cs[n..])
    {
      assert cs[n..][0] == cs[n];
      assert cs[n..][1..] == cs[n + 1..];
      n := n + 1;
    }
  }

  /** `re.search` from start position `i` onwards. */
  function SearchFrom(p: seq<Atom>, s: string, i: nat): Option<seq<nat>>
    decreases |s| + 1 - i
  {
    if i > |s| then
      None
    else
      match Match(p, 0, s, i)
      case Some(b) => Some(b)
      case None => SearchFrom(p, s, i + 1)
  }

  /** `re.search(p, s)`: the boundaries of the match found, if any. */
  function Search(p: seq<Atom>, s: string): Option<seq<nat>> {
    SearchFrom(p, s, 0)
  }

  /** There is a match of `p` in `s` starting at `i`. */
  ghost predicate MatchesAt(p: seq<Atom>, s: string, i: nat) {
    exists b :: |b| > 0 && b[0] == i && IsMatch(p, s, b)
  }

  lemma {:induction false} SearchFromCorrect(p: seq<Atom>, s: string, i: nat)
    ensures SearchFrom(p, s, i).None? ==> forall k: nat :: i <= k <= |s| ==> !MatchesAt(p, s, k)
    ensures SearchFrom(p, s, i).Some? ==>
      var b := SearchFrom(p, s, i).value;
      && IsMatch(p, s, b) && i <= b[0] <= |s|
      && forall k: nat :: i <= k < b[0] ==> !MatchesAt(p, s, k)
    decreases |s| + 1 - i
  {
    if i <= |s| {
      MatchSound(p, 0, s, i);
      MatchComplete(p, 0, s, i);
      SearchFromCorrect(p, s, i + 1);
    }
  }

  /** `Search` finds a match iff there is one, and when it does, the match
      starts at the leftmost position where any match starts. */
  lemma SearchCorrect(p: seq<Atom>, s: string)
    ensures Search(p, s).None? <==> forall k: nat :: k <= |s| ==> !MatchesAt(p, s, k)
    ensures Search(p, s).Some? ==>
      var b := Search(p, s).value;
      && IsMatch(p, s, b) && b[0] <= |s|
      && forall k: nat :: k < b[0] ==> !MatchesAt(p, s, k)
  {
    SearchFromCorrect(p, s, 0);
    if Search(p, s).Some? {
      var b := Search(p, s).value;
      assert MatchesAt(p, s, b[0]);
    }
  }

  /** Some match of the atoms `p[i..]` starts at `j`. */
  ghost predicate MatchesFrom(p: seq<Atom>, i: nat, s: string, j: nat) {
    exists c :: |c| > 0 && c[0] == j && IsMatchFrom(p, i, s, c)
  }

  /** The index of the first occurrence of `x` in `cs`, or `|cs|`. */
  function IndexOf(cs: seq<nat>, x: nat): (m: nat)
    ensures m <= |cs| && (m < |cs| <==> x in cs)
    ensures m < |cs| ==> cs[m] == x
    ensures forall k :: 0 <= k < m ==> cs[k] != x
  {
    if |cs| == 0 then 0
    else if cs[0] == x then 0
    else
      var m := IndexOf(cs[1..], x);
      assert forall k :: 0 < k < |cs| ==> cs[k] == cs[1..][k - 1];
      1 + m
  }

  /** Taking atom `p[i]` from `j` to `e` is the engine's choice: every end
      position it tries before it first reaches `e` leads to no match of the
      later atoms. */
  ghost predicate EarliestViable(p: seq<Atom>, i: nat, s: string, j: nat, e: nat) {
    && i < |p| && j <= |s|
    && var cs := Candidates(p[i], s, j);
       forall m :: 0 <= m < IndexOf(cs, e) ==> !MatchesFrom(p, i + 1, s, cs[m])
  }

  /** `b` is the match of `p[i..]` that backtracking prefers among those
      starting at `b[0]`: at every atom it takes the first end position, in
      the atom's priority order, from which the rest of the pattern matches. */
  ghost predicate Preferred(p: seq<Atom>, i: nat, s: string, b: seq<nat>) {
    && IsMatchFrom(p, i, s, b)
    && forall k :: 0 <= k < |p| - i ==> EarliestViable(p, i + k, s, b[k], b[k + 1])
  }

  /** What `TryEach` finds goes through the first candidate end, in the
      order of `cs`, from which the later atoms match. */
  lemma {:induction false} TryEachFirst(p: seq<Atom>, i: nat, s: string, j: nat, cs: seq<nat>)
    requires i < |p| && j <= |s|
    requires forall k :: 0 <= k < |cs| ==> cs[k] <= |s|
    ensures TryEach(p, i, s, j, cs).Some? ==>
      var r := TryEach(p, i, s, j, cs).value;
      && |r| > 1 && r[0] == j && r[1] in cs
      && Match(p, i + 1, s, r[1]) == Some(r[1..])
      && forall m :: 0 <= m < IndexOf(cs, r[1]) ==> !MatchesFrom(p, i + 1, s, cs[m])
    decreases |cs|
  {
    if |cs| > 0 {
      MatchSound(p, i + 1, s, cs[0]);
      match Match(p, i + 1, s, cs[0])
      case Some(b) =>
        assert ([j] + b)[1..] == b;
      case None =>
        MatchComplete(p, i + 1, s, cs[0]);
        TryEachFirst(p, i, s, j, cs[1..]);
        if TryEach(p, i, s, j, cs).Some? {
          var r := TryEach(p, i, s, j, cs).value;
          assert r[1] != cs[0];
          assert IndexOf(cs, r[1]) == 1 + IndexOf(cs[1..], r[1]);
          forall m | 0 < m < IndexOf(cs, r[1])
            ensures !MatchesFrom(p, i + 1, s, cs[m])
          {
            assert cs[1..][m - 1] == cs[m];
          }
        }
    }
  }

  /** What `Match` finds is the match backtracking prefers. */
  lemma {:induction false} MatchPreferred(p: seq<Atom>, i: nat, s: string, j: nat)
    requires i <= |p| && j <= |s|
    ensures Match(p, i, s, j).Some? ==> Preferred(p, i, s, Match(p, i, s, j).value)
    decreases |p| - i
  {
    MatchSound(p, i, s, j);
    if i < |p| && Match(p, i, s, j).Some? {
      var cs := Candidates(p[i], s, j);
      TryEachFirst(p, i, s, j, cs);
      var r := Match(p, i, s, j).value;
      MatchPreferred(p, i + 1, s, r[1]);
      var rest := r[1..];
      forall k | 0 <= k < |p| - i
        ensures EarliestViable(p, i + k, s, r[k], r[k + 1])
      {
        if k > 0 {
          assert EarliestViable(p, i + 1 + (k - 1), s, rest[k - 1], rest[k]);
        }
      }
    }
  }

  /** The later atoms of a preferred match form a preferred match. */
  lemma PreferredTail(p: seq<Atom>, i: nat, s: string, b: seq<nat>)
    requires i < |p| && Preferred(p, i, s, b)
    ensures Preferred(p, i + 1, s, b[1..]) && EarliestViable(p, i, s, b[0], b[1])
    ensures AtomMatches(p[i], s, b[0], b[1])
  {
    UnconsMatch(p, i, s, b);
    assert EarliestViable(p, i + 0, s, b[0], b[0 + 1]);
    forall k | 0 <= k < |p| - (i + 1)
      ensures EarliestViable(p, i + 1 + k, s, b[1..][k], b[1..][k + 1])
    {
      assert EarliestViable(p, i + (k + 1), s, b[k + 1], b[k + 2]);
    }
  }

  /** Backtracking order pins the match: two preferred matches that start at
      the same position are the same match. */
  lemma {:induction false} PreferredUnique(p: seq<Atom>, i: nat, s: string, b: seq<nat>, c: seq<nat>)
    requires Preferred(p, i, s, b) && Preferred(p, i, s, c) && b[0] == c[0]
    ensures b == c
    decreases |p| - i
  {
    if i < |p| {
      var j := b[0];
      PreferredTail(p, i, s, b);
      PreferredTail(p, i, s, c);
      var cs := Candidates(p[i], s, j);
      CandidatesExact(p[i], s, j, b[1]);
      CandidatesExact(p[i], s, j, c[1]);
      var mb := IndexOf(cs, b[1]);
      var mc := IndexOf(cs, c[1]);
      assert MatchesFrom(p, i + 1, s, b[1]) by {
        assert |b[1..]| > 0 && b[1..][0] == b[1];
      }
      assert MatchesFrom(p, i + 1, s, c[1]) by {
        assert |c[1..]| > 0 && c[1..][0] == c[1];
      }
      if mb != mc {
        assert false;
      }
      assert b[1] == c[1];
      PreferredUnique(p, i + 1, s, b[1..], c[1..]);
      assert b == [b[0]] + b[1..] && c == [c[0]] + c[1..];
    }
  }

  /** The match `re.search` reports is the one backtracking prefers. */
  lemma {:induction false} SearchFromPreferred(p: seq<Atom>, s: string, i: nat)
    ensures SearchFrom(p, s, i).Some? ==> Preferred(p, 0, s, SearchFrom(p, s, i).value)
    decreases |s| + 1 - i
  {
    if i <= |s| {
      MatchPreferred(p, 0, s, i);
      SearchFromPreferred(p, s, i + 1);
    }
  }

  /** Every boundary of a match lies within the text, in increasing order. */
  lemma MatchBounds(p: seq<Atom>, s: string, b: seq<nat>, k: nat)
    requires IsMatch(p, s, b) && k < |p|
    ensures b[k] <= b[k + 1] <= |s|
  {
    assert AtomMatches(p[0 + k], s, b[k], b[k + 1]);
  }
}

=== FILE: period.dfy ===
/** Time-period extraction and calendar arithmetic (`extract_time_period` and
    `resolve_period_to_dates` in sports_query.py). Dates are day numbers:
    day 0 is 1970-01-01, a Thursday, and the day after day `d` is `d + 1`. */
module Period {
  import opened Text

  /** The four symbolic period labels. */
  const Yesterday: string := "yesterday"
  const Today: string := "today"
  const Weekend: string := "weekend"
  const Unspecified: string := "unspecified"

  /** `extract_time_period`: the first of "hier", "aujourd'hui"/"aujourdhui",
      "ce week-end"/"ce weekend" found in the lower-cased text decides the
      label; the empty text and a text with none of them are unspecified. */
  function ExtractTimePeriod(text: string): (r: string)
    ensures r == Yesterday || r == Today || r == Weekend || r == Unspecified
    ensures |text| == 0 ==> r == Unspecified
    ensures |text| > 0 ==>
      var t := LowerStr(text);
      && (r == Yesterday <==> Occurs("hier", t))
      && (r == Today <==> !Occurs("hier", t) && (Occurs("aujourd'hui", t) || Occurs("aujourdhui", t)))
      && (r == Weekend <==>
            && !Occurs("hier", t) && !Occurs("aujourd'hui", t) && !Occurs("aujourdhui", t)
            && (Occurs("ce week-end", t) || Occurs("ce weekend", t)))
  {
    if |text| == 0 then
      Unspecified
    else
      var t := LowerStr(text);
      if Contains(t, "hier") then Yesterday
      else if Contains(t, "aujourd'hui") || Contains(t, "aujourdhui") then Today
      else if Contains(t, "ce week-end") || Contains(t, "ce weekend") then Weekend
      else Unspecified
  }

  /** `date.weekday()`: Monday is 0 and Sunday is 6. */
  function Weekday(d: int): (w: int)
    ensures 0 <= w < 7
  {
    (d + 3) % 7
  }

  const Saturday: int := 5
  const Sunday: int := 6

  /** `resolve_period_to_dates`: the inclusive range of days a label stands
      for, relative to the reference day `today`. "today" is that day,
      "weekend" the Saturday–Sunday pair just past (its Saturday is the
      latest one strictly before `today`), and every other label (including
      "yesterday" and "unspecified") the day before. */
  function ResolvePeriodToDates(period: string, today: int): (r: (int, int))
    ensures r.0 <= r.1 <= today
    ensures period == Today ==> r == (today, today)
    ensures period != Today && period != Weekend ==> r == (today - 1, today - 1)
    ensures period == Weekend ==>
      && Weekday(r.0) == Saturday && r.1 == r.0 + 1
      && today - 7 <= r.0 <= today - 1
      && (Weekday(today) == Saturday ==> r.0 == today - 7)
      && (Weekday(today) == Sunday ==> r.1 == today)
      && (forall d :: r.0 < d < today ==> Weekday(d) != Saturday)
  {
    if period == Today then
      (today, today)
    else if period == Yesterday || period == Unspecified then
      (today - 1, today - 1)
    else if period == Weekend then
      var offset := (Weekday(today) - Saturday) % 7;
      var saturday := today - (if offset == 0 then 7 else offset);
      (saturday, saturday + 1)
    else
      (today - 1, today - 1)
  }
}

=== FILE: pipeline.dfy ===
/** The orchestrator (`handle_sports_question` in sports_query.py): extract
    the team and the period, resolve the dates, ask the football provider and
    then the basketball provider, and answer with the first finished game
    found, an honest "not found" sentence, or nothing. The providers' network
    calls are inputs: whether a key is configured, what the team search
    returns, and which games the date-range query returns. */
module Pipeline {
  import opened Common
  import opened Text
  import opened Matcher
  import opened TeamName
  import opened Classifier
  import opened Period
  import opened Selection
  import opened Answer

  /** What a team search returns: the id (possibly missing) and the name
      (the queried name when the provider gives none). */
  datatype TeamRef = TeamRef(id: Option<int>, name: string)

  /** One sports data provider as the pipeline sees it. `games(id, from, to)`
      stands for the fixtures or games of team `id` between two days. */
  datatype Provider = Provider(
    hasKey: bool,
    search: string -> Option<TeamRef>,
    games: (int, int, int) -> seq<Game>)

  /** The answer one provider gives, if any: nothing without a key, without
      a search hit, for an id that is missing or 0, or when no finished game
      of the team is in range; otherwise the sentence about the newest
      finished game of the team. */
  function AskProvider(sport: Sport, p: Provider, team: string, from: int, to: int): (r: Option<string>)
    ensures !p.hasKey ==> r.None?
    ensures p.search(team).None? || p.search(team).value.id.None? || p.search(team).value.id == Some(0) ==> r.None?
    ensures
      && p.hasKey && p.search(team).Some? && p.search(team).value.id.Some? && p.search(team).value.id.value != 0
      && (exists g :: g in p.games(p.search(team).value.id.value, from, to)
                      && Qualifies(sport, g, p.search(team).value.id.value))
      ==> r.Some?
    ensures r.Some? ==>
      var info := p.search(team).value;
      var gs := p.games(info.id.value, from, to);
      exists g :: g in gs
        && Qualifies(sport, g, info.id.value)
        && (forall g' :: g' in gs && Qualifies(sport, g', info.id.value) ==> NotOlder(g.when, g'.when))
        && r.value == FormatAnswer(info.name, g)
  {
    if !p.hasKey then
      None
    else
      match p.search(team)
      case None => None
      case Some(info) =>
        if info.id.None? || info.id.value == 0 then
          None
        else
          var id := info.id.value;
          match PickLastFinished(sport, p.games(id, from, to), id)
          case None => None
          case Some(g) => Some(FormatAnswer(info.name, g))
  }

  /** The sentence given when a provider is configured but nothing was found. */
  function NotFound(team: string): string {
    "Je n\U{2019}ai pas trouv\U{E9} de match pour " + team + " sur cette p\U{E9}riode."
  }

  /** `handle_sports_question`, with the reference day and the providers as
      inputs. */
  function HandleSportsQuestion(text: string, today: int, foot: Provider, basket: Provider): (r: Option<string>)
    ensures |text| == 0 ==> r.None?
    ensures ExtractTeamName(text).None? || ExtractTeamName(text) == Some("") ==> r.None?
    ensures !foot.hasKey && !basket.hasKey ==> r.None?
    ensures (foot.hasKey || basket.hasKey) && ExtractTeamName(text).Some? && |ExtractTeamName(text).value| > 0 ==> r.Some?
    ensures r.Some? ==>
      var team := ExtractTeamName(text).value;
      var dates := ResolvePeriodToDates(ExtractTimePeriod(text), today);
      var f := AskProvider(Football, foot, team, dates.0, dates.1);
      var b := AskProvider(Basketball, basket, team, dates.0, dates.1);
      || (f.Some? && r == f)
      || (f.None? && b.Some? && r == b)
      || (f.None? && b.None? && r.value == NotFound(team))
  {
    if |text| == 0 then
      None
    else
      match ExtractTeamName(text)
      case None => None
      case Some(team) =>
        if |team| == 0 then
          None
        else
          var dates := ResolvePeriodToDates(ExtractTimePeriod(text), today);
          match AskProvider(Football, foot, team, dates.0, dates.1)
          case Some(answer) => Some(answer)
          case None =>
            match AskProvider(Basketball, basket, team, dates.0, dates.1)
            case Some(answer) => Some(answer)
            case None =>
              if foot.hasKey || basket.hasKey then Some(NotFound(team)) else None
  }

  /** A football answer is final: it is the answer, and the basketball
      provider is not consulted. */
  lemma FootballFirst(text: string, today: int, foot: Provider, basket: Provider, other: Provider)
    ensures
      var team := ExtractTeamName(text);
      var dates := ResolvePeriodToDates(ExtractTimePeriod(text), today);
      team.Some? && |team.value| > 0 && AskProvider(Football, foot, team.value, dates.0, dates.1).Some? ==>
        && HandleSportsQuestion(text, today, foot, basket) == AskProvider(Football, foot, team.value, dates.0, dates.1)
        && HandleSportsQuestion(text, today, foot, other) == HandleSportsQuestion(text, today, foot, basket)
  {
  }

  /** A keyword of `kw` read off a case-insensitive literal match: when `kw`
      is a prefix of `lit` and is its own lower case, it occurs in the
      lower-cased text. */
  lemma LitKeyword(s: string, j: nat, lit: string, kw: string)
    requires LitAt(s, j, lit) && |kw| <= |lit|
    requires forall i :: 0 <= i < |kw| ==> lit[i] == kw[i] && Lower(kw[i]) == kw[i]
    ensures Occurs(kw, LowerStr(s))
  {
    var t := LowerStr(s);
    forall i | 0 <= i < |kw|
      ensures t[j + i] == kw[i]
    {
      assert EqI(s[j + i], lit[i]);
    }
    assert IsPrefixAt(kw, t, j);
  }

  lemma WhatDidHasKeyword(s: string, b: seq<nat>)
    requires IsMatch(WhatDidPattern.Atoms(), s, b)
    ensures Occurs(SportsKeywords[4], LowerStr(s))
  {
    var p := WhatDidPattern.Atoms();
    assert AtomMatches(p[0 + 2], s, b[2], b[3]);
    assert p[2] == Lit("a fait");
    LitKeyword(s, b[2], "a fait", SportsKeywords[4]);
  }

  lemma ScoreOfHasKeyword(s: string, b: seq<nat>)
    requires IsMatch(ScoreOfPattern.Atoms(), s, b)
    ensures Occurs(SportsKeywords[0], LowerStr(s))
  {
    var p := ScoreOfPattern.Atoms();
    assert AtomMatches(p[0 + 0], s, b[0], b[1]);
    assert p[0] == Lit("score ");
    LitKeyword(s, b[0], "score ", SportsKeywords[0]);
  }

  lemma BeforeNounHasKeyword(s: string, b: seq<nat>)
    requires IsMatch(BeforeNounPattern.Atoms(), s, b)
    ensures exists i :: 0 <= i < 4 && Occurs(SportsKeywords[i], LowerStr(s))
  {
    var p := BeforeNounPattern.Atoms();
    var alts := ["match", "score", "r\U{E9}sultat", "resultat"];
    assert AtomMatches(p[0 + 4], s, b[4], b[5]);
    assert p[4] == Choice(alts, false);
    var m :| 0 <= m < |alts| && LitAt(s, b[4], alts[m]);
    var i := [1, 0, 2, 3][m];
    assert alts[m] == SportsKeywords[i];
    LitKeyword(s, b[4], alts[m], SportsKeywords[i]);
  }

  /** The text the patterns are applied to is a sports question: whichever pattern
      matched, it contains a keyword. */
  lemma CapturedIsSportsQuestion(s: string)
    ensures FirstCapture(s).Some? ==> IsSportsQuestion(s)
  {
    if FirstCapture(s).None? {
    } else if Capture(WhatDidPattern, s).Some? {
      var b :| IsMatch(WhatDidPattern.Atoms(), s, b);
      WhatDidHasKeyword(s, b);
      KeywordMakesSportsQuestion(s, 4);
    } else if Capture(ScoreOfPattern, s).Some? {
      var b :| IsMatch(ScoreOfPattern.Atoms(), s, b);
      ScoreOfHasKeyword(s, b);
      KeywordMakesSportsQuestion(s, 0);
    } else {
      var b :| IsMatch(BeforeNounPattern.Atoms(), s, b);
      BeforeNounHasKeyword(s, b);
      var i :| 0 <= i < 4 && Occurs(SportsKeywords[i], LowerStr(s));
      KeywordMakesSportsQuestion(s, i);
    }
  }

  /** Every question the team extractor understands is also one the keyword
      classifier accepts, so the orchestrator loses nothing by not calling
      the classifier. */
  lemma TeamImpliesSportsQuestion(text: string)
    ensures ExtractTeamName(text).Some? ==> IsSportsQuestion(text)
  {
    if ExtractTeamName(text).None? {
      return;
    }
    var s := StripSpace(text);
    assert FirstCapture(s).Some?;
    CapturedIsSportsQuestion(s);
    var start: nat :| StripsAt(text, s, start, IsSpace);
    assert IsPrefixAt(s, text, start);
    SportsQuestionMonotone(s, text);
  }

  /** The orchestrator only ever answers sports questions. */
  lemma AnswerImpliesSportsQuestion(text: string, today: int, foot: Provider, basket: Provider)
    ensures HandleSportsQuestion(text, today, foot, basket).Some? ==> IsSportsQuestion(text)
  {
    TeamImpliesSportsQuestion(text);
  }
}

=== FILE: selection.dfy ===
/** Result selection (`pick_last_finished_football` and
    `pick_last_finished_basketball` in sports_query.py). The source sorts the
    records newest first with a stable sort and returns the first one that is
    finished and involves the team; that is the newest qualifying record, the
    earliest in the input among equally new ones. */
module Selection {
  import opened Common

  datatype Sport = Football | Basketball

  /** One side of a game: the team's id and name, either possibly missing. */
  datatype Side = Side(id: Option<int>, name: Option<string>)

  /** A fixture or game as the provider returns it. `when` is the kick-off
      time (seconds, say), absent when the date is missing or unparseable;
      `status` is the short status code; `away` is the "away" side in
      football and the "visitors" side in basketball. */
  datatype Game = Game(
    when: Option<int>,
    status: Option<string>,
    home: Side,
    away: Side,
    homeScore: Option<int>,
    awayScore: Option<int>)

  /** The status codes that mean the game is over. */
  function FinishedCodes(sport: Sport): (codes: set<string>)
    ensures sport == Football ==> codes == {"FT", "AET", "PEN"}
    ensures sport == Basketball ==> codes == {"FT", "AOT", "FT OT"}
  {
    match sport
    case Football => {"FT", "AET", "PEN"}
    case Basketball => {"FT", "AOT", "FT OT"}
  }

  predicate IsFinished(sport: Sport, g: Game) {
    g.status.Some? && g.status.value in FinishedCodes(sport)
  }

  /** `team_id in (home id, away id)`: a missing id never equals the team's. */
  predicate Involves(g: Game, teamId: int) {
    g.home.id == Some(teamId) || g.away.id == Some(teamId)
  }

  predicate Qualifies(sport: Sport, g: Game, teamId: int) {
    IsFinished(sport, g) && Involves(g, teamId)
  }

  /** The sort key order: `a` is at least as new as `b`; a missing time is
      `datetime.min`, older than every real time. */
  predicate NotOlder(a: Option<int>, b: Option<int>) {
    b.None? || (a.Some? && a.value >= b.value)
  }

  /** The index the source's sort-then-scan returns: the newest qualifying
      record, and among equally new ones the earliest. */
  function NewestIndex(sport: Sport, gs: seq<Game>, teamId: int): (r: Option<nat>)
    ensures r.None? <==> forall k :: 0 <= k < |gs| ==> !Qualifies(sport, gs[k], teamId)
    ensures r.Some? ==>
      && r.value < |gs| && Qualifies(sport, gs[r.value], teamId)
      && (forall k :: 0 <= k < |gs| && Qualifies(sport, gs[k], teamId) ==> NotOlder(gs[r.value].when, gs[k].when))
      && (forall k :: 0 <= k < r.value && Qualifies(sport, gs[k], teamId) ==> !NotOlder(gs[k].when, gs[r.value].when))
  {
    if |gs| == 0 then
      None
    else
      var rest := NewestIndex(sport, gs[1..], teamId);
      assert forall k :: 0 < k < |gs| ==> gs[k] == gs[1..][k - 1];
      if Qualifies(sport, gs[0], teamId) && (rest.None? || NotOlder(gs[0].when, gs[1..][rest.value].when)) then
        Some(0)
      else if rest.None? then
        None
      else
        Some(rest.value + 1)
  }

  /** `pick_last_finished_football` / `pick_last_finished_basketball`. */
  function PickLastFinished(sport: Sport, gs: seq<Game>, teamId: int): (r: Option<Game>)
    ensures |gs| == 0 ==> r.None?
    ensures r.None? <==> forall k :: 0 <= k < |gs| ==> !Qualifies(sport, gs[k], teamId)
    ensures r.Some? ==>
      && r.value in gs && Qualifies(sport, r.value, teamId)
      && forall k :: 0 <= k < |gs| && Qualifies(sport, gs[k], teamId) ==> NotOlder(r.value.when, gs[k].when)
  {
    match NewestIndex(sport, gs, teamId)
    case None => None
    case Some(i) => Some(gs[i])
  }

  /** The selection is determined by its specification: any index holding
      a qualifying record, not older than any other, and newer than every
      qualifying record before it, is the one `NewestIndex` returns. */
  lemma NewestIndexUnique(sport: Sport, gs: seq<Game>, teamId: int, i: nat)
    requires i < |gs| && Qualifies(sport, gs[i], teamId)
    requires forall k :: 0 <= k < |gs| && Qualifies(sport, gs[k], teamId) ==> NotOlder(gs[i].when, gs[k].when)
    requires forall k :: 0 <= k < i && Qualifies(sport, gs[k], teamId) ==> !NotOlder(gs[k].when, gs[i].when)
    ensures NewestIndex(sport, gs, teamId) == Some(i)
  {
  }

  /** A record that is not finished, or does not involve the team, never
      influences the choice, wherever it is added. */
  lemma IrrelevantAppended(sport: Sport, gs: seq<Game>, g: Game, teamId: int)
    requires !Qualifies(sport, g, teamId)
    ensures PickLastFinished(sport, gs + [g], teamId) == PickLastFinished(sport, gs, teamId)
  {
    var a := gs + [g];
    assert forall k :: 0 <= k < |gs| ==> a[k] == gs[k];
    match NewestIndex(sport, gs, teamId)
    case None =>
    case Some(i) => NewestIndexUnique(sport, a, teamId, i);
  }

  lemma IrrelevantPrepended(sport: Sport, gs: seq<Game>, g: Game, teamId: int)
    requires !Qualifies(sport, g, teamId)
    ensures PickLastFinished(sport, [g] + gs, teamId) == PickLastFinished(sport, gs, teamId)
  {
    var b := [g] + gs;
    assert forall k :: 0 <= k < |gs| ==> b[k + 1] == gs[k];
    match NewestIndex(sport, gs, teamId)
    case None =>
    case Some(i) => NewestIndexUnique(sport, b, teamId, i + 1);
  }
}

=== FILE: team.dfy ===
/** Team-name extraction (`extract_team_name` in sports_query.py): three
    regular expressions tried in order on the stripped question, the first
    that matches anywhere giving its second group, cleaned of punctuation and
    whitespace. */
module TeamName {
  import opened Common
  import opened Text
  import opened Matcher

  /** A regular expression of the extractor. In all three the team-name
      group is a lazy `(.+?)` between the atoms `head` and `tail`. */
  datatype Pattern = Pattern(head: seq<Atom>, tail: seq<Atom>) {
    function Atoms(): seq<Atom> {
      head + [LazyAny] + tail
    }

    /** The index of the group's atom. */
    function Group(): nat {
      |head|
    }
  }

  /** `(?i)qu[’']?a fait\s+(le|la|les|l')?\s*(.+?)\s+(ce week-end|ce weekend|hier|aujourd'hui|\?)` */
  const WhatDidPattern: Pattern := Pattern(
    [ Lit("qu"), OptClass({'\U{2019}', '\''}), Lit("a fait"), Spaces(1),
      Choice(["le", "la", "les", "l'"], true), Spaces(0) ],
    [ Spaces(1), Choice(["ce week-end", "ce weekend", "hier", "aujourd'hui", "?"], false) ])

  /** `(?i)score (du|de la|de l'|des)\s+(.+?)\s+(hier|aujourd'hui|ce soir|\?)` */
  const ScoreOfPattern: Pattern := Pattern(
    [ Lit("score "), Choice(["du", "de la", "de l'", "des"], false), Spaces(1) ],
    [ Spaces(1), Choice(["hier", "aujourd'hui", "ce soir", "?"], false) ])

  /** `(?i)(du|de la|de l'|des)\s+(.+?)\s+(match|score|résultat|resultat)` */
  const BeforeNounPattern: Pattern := Pattern(
    [ Choice(["du", "de la", "de l'", "des"], false), Spaces(1) ],
    [ Spaces(1), Choice(["match", "score", "r\U{E9}sultat", "resultat"], false) ])

  /** `g` is the group's text in the match `re.search` reports: the match
      that starts at the leftmost position where any match starts and that,
      among the matches starting there, backtracking prefers. */
  ghost predicate IsCapture(p: Pattern, s: string, g: string) {
    exists b ::
      && IsMatch(p.Atoms(), s, b) && Preferred(p.Atoms(), 0, s, b)
      && b[p.Group()] <= b[p.Group() + 1] <= |s|
      && g == s[b[p.Group()]..b[p.Group() + 1]]
      && forall k: nat :: k < b[0] ==> !MatchesAt(p.Atoms(), s, k)
  }

  /** `p` matches nowhere in `s`. */
  ghost predicate NoMatch(p: Pattern, s: string) {
    forall k: nat :: k <= |s| ==> !MatchesAt(p.Atoms(), s, k)
  }

  /** The group's text in the match `re.search` finds, if it finds one. */
  function Capture(p: Pattern, s: string): (r: Option<string>)
    ensures r.None? <==> NoMatch(p, s)
    ensures r.Some? ==> IsCapture(p, s, r.value)
  {
    var atoms := p.Atoms();
    SearchCorrect(atoms, s);
    SearchFromPreferred(atoms, s, 0);
    match Search(atoms, s)
    case None => None
    case Some(b) =>
      MatchBounds(atoms, s, b, p.Group());
      Some(s[b[p.Group()]..b[p.Group() + 1]])
  }

  /** A pattern captures at most one text: the leftmost start and the
      backtracking order together fix the match. */
  lemma CaptureUnique(p: Pattern, s: string, g1: string, g2: string)
    requires IsCapture(p, s, g1) && IsCapture(p, s, g2)
    ensures g1 == g2
  {
    var atoms := p.Atoms();
    var b1 :| && IsMatch(atoms, s, b1) && Preferred(atoms, 0, s, b1)
      && b1[p.Group()] <= b1[p.Group() + 1] <= |s| && g1 == s[b1[p.Group()]..b1[p.Group() + 1]]
      && forall k: nat :: k < b1[0] ==> !MatchesAt(atoms, s, k);
    var b2 :| && IsMatch(atoms, s, b2) && Preferred(atoms, 0, s, b2)
      && b2[p.Group()] <= b2[p.Group() + 1] <= |s| && g2 == s[b2[p.Group()]..b2[p.Group() + 1]]
      && forall k: nat :: k < b2[0] ==> !MatchesAt(atoms, s, k);
    assert MatchesAt(atoms, s, b1[0]) && MatchesAt(atoms, s, b2[0]);
    PreferredUnique(atoms, 0, s, b1, b2);
  }

  /** The three patterns tried in order on `s`; the first that matches
      supplies the group. */
  function FirstCapture(s: string): Option<string> {
    match Capture(WhatDidPattern, s)
    case Some(g) => Some(g)
    case None =>
      match Capture(ScoreOfPattern, s)
      case Some(g) => Some(g)
      case None => Capture(BeforeNounPattern, s)
  }

  /** The characters of `strip(" ?.!")`. */
  predicate IsTeamPunct(c: char) {
    c == ' ' || c == '?' || c == '.' || c == '!'
  }

  /** `group.strip(" ?.!").strip()` */
  function CleanTeam(g: string): (r: string)
    ensures exists u ::
      && StripsTo(g, u, IsTeamPunct) && (|u| > 0 ==> !IsTeamPunct(u[0]) && !IsTeamPunct(u[|u| - 1]))
      && StripsTo(u, r, IsSpace)
    ensures SpaceFree(r)
  {
    StripSpace(Strip(g, IsTeamPunct))
  }

  /** `extract_team_name`: absent for an empty question; otherwise the cleaned
      group of the first pattern that matches the stripped question. */
  function ExtractTeamName(text: string): (r: Option<string>)
    ensures |text| == 0 ==> r.None?
    ensures r.Some? ==> SpaceFree(r.value)
  {
    if |text| == 0 then
      None
    else
      match FirstCapture(StripSpace(text))
      case None => None
      case Some(g) => Some(CleanTeam(g))
  }

  /** For a non-empty question with stripped form `s`: no name exactly when
      none of the three patterns matches `s`; otherwise the name is the
      cleaned capture of the first pattern, in the extractor's order, that
      matches. */
  lemma ExtractTeamNameOrder(text: string, s: string)
    requires |text| > 0 && s == StripSpace(text)
    ensures ExtractTeamName(text).None? <==>
      NoMatch(WhatDidPattern, s) && NoMatch(ScoreOfPattern, s) && NoMatch(BeforeNounPattern, s)
    ensures ExtractTeamName(text).Some? ==> exists g ::
      && ExtractTeamName(text).value == CleanTeam(g)
      && (|| IsCapture(WhatDidPattern, s, g)
          || (NoMatch(WhatDidPattern, s) && IsCapture(ScoreOfPattern, s, g))
          || (NoMatch(WhatDidPattern, s) && NoMatch(ScoreOfPattern, s) && IsCapture(BeforeNounPattern, s, g)))
  {
    var f := FirstCapture(s);
    assert ExtractTeamName(text) == if f.None? then None else Some(CleanTeam(f.value));
  }
}

=== FILE: text.dfy ===
/** String helpers standing in for the Python `str` methods the bot relies on:
    `isspace`, `lower`, the `in` substring test, `strip` and `str(int)`. */
module Text {

  /** Python's `str.isspace()`; the same set backs `\s` in a `str` regular
      expression and `str.strip()` called without an argument. */
  predicate IsSpace(c: char) {
    || c == ' '
    || ('\t' <= c <= '\r')
    || ('\U{1C}' <= c <= '\U{1F}')
    || c == '\U{85}'
    || c == '\U{A0}'
    || c == '\U{1680}'
    || ('\U{2000}' <= c <= '\U{200A}')
    || c == '\U{2028}'
    || c == '\U{2029}'
    || c == '\U{202F}'
    || c == '\U{205F}'
    || c == '\U{3000}'
  }

  /** The capital letters lower-casing changes: ASCII `A`-`Z` and Latin-1
      `\U{C0}`-`\U{DE}` except the multiplication sign `\U{D7}`. */
  predicate IsCapital(c: char) {
    ('A' <= c <= 'Z') || ('\U{C0}' <= c <= '\U{DE}' && c != '\U{D7}')
  }

  /** The small letters they become: ASCII `a`-`z` and Latin-1
      `\U{E0}`-`\U{FE}` except the division sign `\U{F7}`. */
  predicate IsSmall(c: char) {
    ('a' <= c <= 'z') || ('\U{E0}' <= c <= '\U{FE}' && c != '\U{F7}')
  }

  /** Lower-casing of one character, for ASCII and Latin-1 letters (the only
      upper-case letters the bot's French keywords can meet); every other
      character is its own lower case. */
  function Lower(c: char): (l: char)
    ensures IsCapital(c) ==> IsSmall(l)
    ensures !IsCapital(c) ==> l == c
    ensures !IsCapital(l)
  {
    if IsCapital(c) then (c as int + 32) as char else c
  }

  /** Distinct capitals become distinct small letters, so lower-casing
      confuses no two letters. */
  lemma LowerDistinct(a: char, b: char)
    requires IsCapital(a) && IsCapital(b) && a != b
    ensures Lower(a) != Lower(b)
  {
  }

  /** Which small letter a capital becomes, at both ends of each range. */
  lemma LowerLetters()
    ensures Lower('A') == 'a' && Lower('E') == 'e' && Lower('Z') == 'z'
    ensures Lower('\U{C0}') == '\U{E0}' && Lower('\U{C9}') == '\U{E9}' && Lower('\U{DE}') == '\U{FE}'
    ensures Lower('\U{D7}') == '\U{D7}' && Lower('\U{E9}') == '\U{E9}' && Lower('\U{2019}') == '\U{2019}'
  {
  }

  /** Python's `s.lower()`: character by character, same length; no capital
      is left, and every other character is kept where it was. */
  function LowerStr(s: string): (r: string)
    ensures |r| == |s|
    ensures forall k :: 0 <= k < |s| ==> r[k] == Lower(s[k])
    ensures forall k :: 0 <= k < |r| ==> !IsCapital(r[k])
    ensures forall k :: 0 <= k < |s| && !IsCapital(s[k]) ==> r[k] == s[k]
  {
    seq(|s|, k requires 0 <= k < |s| => Lower(s[k]))
  }

  /** Lower-casing a lower-cased text changes nothing. */
  lemma LowerStrIdempotent(s: string)
    ensures LowerStr(LowerStr(s)) == LowerStr(s)
  {
  }

  /** `sub` sits in `s` starting at index `i`. */
  predicate IsPrefixAt(sub: string, s: string, i: nat) {
    i + |sub| <= |s| && s[i..i + |sub|] == sub
  }

  /** The meaning of Python's `sub in s`. */
  ghost predicate Occurs(sub: string, s: string) {
    exists i: nat :: IsPrefixAt(sub, s, i)
  }

  /** Scans `s` from index `i` for an occurrence of `sub`. */
  function ContainsFrom(s: string, sub: string, i: nat): (b: bool)
    ensures b <==> exists k: nat :: i <= k && IsPrefixAt(sub, s, k)
    decreases |s| - i
  {
    if i + |sub| > |s| then
      false
    else if IsPrefixAt(sub, s, i) then
      true
    else
      var b := ContainsFrom(s, sub, i + 1);
      assert forall k: nat :: i <= k && IsPrefixAt(sub, s, k) ==> k == i || i + 1 <= k;
      b
  }

  /** Python's `sub in s`, executable. */
  function Contains(s: string, sub: string): (b: bool)
    ensures b <==> Occurs(sub, s)
  {
    ContainsFrom(s, sub, 0)
  }

  /** An occurrence inside an occurrence is an occurrence. */
  lemma OccursTrans(a: string, b: string, c: string)
    requires Occurs(a, b) && Occurs(b, c)
    ensures Occurs(a, c)
  {
    var i: nat :| IsPrefixAt(a, b, i);
    var j: nat :| IsPrefixAt(b, c, j);
    forall k | 0 <= k < |a|
      ensures c[j + i + k] == a[k]
    {
      assert b[i + k] == a[k];
      assert c[j..j + |b|][i + k] == c[j + i + k];
    }
    assert IsPrefixAt(a, c, j + i);
  }

  /** A substring of `s` lowers to a substring of `s.lower()`. */
  lemma OccursLower(a: string, s: string)
    requires Occurs(a, s)
    ensures Occurs(LowerStr(a), LowerStr(s))
  {
    var i: nat :| IsPrefixAt(a, s, i);
    assert LowerStr(s)[i..i + |a|] == LowerStr(a);
    assert IsPrefixAt(LowerStr(a), LowerStr(s), i);
  }

  /** Every character of `t` satisfies `drop`. */
  predicate AllDrop(t: string, drop: char -> bool) {
    forall k :: 0 <= k < |t| ==> drop(t[k])
  }

  /** Python's `s.lstrip(chars)`, with `chars` given as a predicate. */
  function TrimStart(s: string, drop: char -> bool): (r: string)
    ensures |r| <= |s| && r == s[|s| - |r|..]
    ensures AllDrop(s[..|s| - |r|], drop)
    ensures |r| > 0 ==> !drop(r[0])
    decreases |s|
  {
    if |s| > 0 && drop(s[0]) then TrimStart(s[1..], drop) else s
  }

  /** Python's `s.rstrip(chars)`, with `chars` given as a predicate. */
  function TrimEnd(s: string, drop: char -> bool): (r: string)
    ensures |r| <= |s| && r == s[..|r|]
    ensures AllDrop(s[|r|..], drop)
    ensures |r| > 0 ==> !drop(r[|r| - 1])
    decreases |s|
  {
    if |s| > 0 && drop(s[|s| - 1]) then TrimEnd(s[..|s| - 1], drop) else s
  }

  /** `r` is `s` with its first `i` characters and a tail removed, every
      removed character satisfying `drop`. */
  predicate StripsAt(s: string, r: string, i: nat, drop: char -> bool) {
    IsPrefixAt(r, s, i) && AllDrop(s[..i], drop) && AllDrop(s[i + |r|..], drop)
  }

  /** `r` is `s` with a run of `drop` characters removed from each end. */
  ghost predicate StripsTo(s: string, r: string, drop: char -> bool) {
    exists i: nat :: StripsAt(s, r, i, drop)
  }

  /** Python's `s.strip(chars)`: removes every leading and every trailing
      character satisfying `drop`, and nothing else. */
  function Strip(s: string, drop: char -> bool): (r: string)
    ensures StripsTo(s, r, drop)
    ensures |r| > 0 ==> !drop(r[0]) && !drop(r[|r| - 1])
  {
    var a := TrimStart(s, drop);
    var r := TrimEnd(a, drop);
    KeptSlice(s, a, r, drop, |s| - |a|);
    assert |r| > 0 ==> r[0] == a[0];
    r
  }

  /** Removing droppable characters from the front and then from the back
      leaves a strip of `s`. */
  lemma KeptSlice(s: string, a: string, r: string, drop: char -> bool, i: nat)
    requires i <= |s| && a == s[i..] && AllDrop(s[..i], drop)
    requires |r| <= |a| && r == a[..|r|] && AllDrop(a[|r|..], drop)
    ensures StripsAt(s, r, i, drop)
  {
    assert s[i + |r|..] == a[|r|..];
  }

  /** A character of `s` outside the kept part was dropped. */
  lemma OutsideDropped(s: string, r: string, i: nat, drop: char -> bool, k: nat)
    requires StripsAt(s, r, i, drop)
    requires k < i || i + |r| <= k < |s|
    ensures drop(s[k])
  {
    if k < i {
      assert s[..i][k] == s[k];
    } else {
      assert s[i + |r|..][k - i - |r|] == s[k];
    }
  }

  /** Two strips whose kept parts have non-droppable ends agree. */
  lemma StripsAtSame(s: string, t: string, i: nat, r: string, j: nat, drop: char -> bool)
    requires StripsAt(s, t, i, drop) && StripsAt(s, r, j, drop)
    requires |t| > 0 ==> !drop(t[0]) && !drop(t[|t| - 1])
    requires |r| > 0 ==> !drop(r[0]) && !drop(r[|r| - 1])
    ensures t == r
  {
    if |t| > 0 && |r| > 0 {
      assert t[0] == s[i] && r[0] == s[j];
      if i < j { OutsideDropped(s, r, j, drop, i); }
      if j < i { OutsideDropped(s, t, i, drop, j); }
      var e := i + |t| - 1;
      var f := j + |r| - 1;
      assert t[|t| - 1] == s[e] && r[|r| - 1] == s[f];
    } else if |t| > 0 {
      assert t[0] == s[i];
      OutsideDropped(s, r, j, drop, i);
    } else if |r| > 0 {
      assert r[0] == s[j];
      OutsideDropped(s, t, i, drop, j);
    }
  }

  /** Stripping is determined by its two promises: any `t` obtained from `s`
      by removing droppable ends and itself without droppable ends is the
      result of `Strip`. */
  lemma StripUnique(s: string, t: string, drop: char -> bool)
    requires StripsTo(s, t, drop)
    requires |t| > 0 ==> !drop(t[0]) && !drop(t[|t| - 1])
    ensures t == Strip(s, drop)
  {
    var r := Strip(s, drop);
    var i: nat :| StripsAt(s, t, i, drop);
    var j: nat :| StripsAt(s, r, j, drop);
    StripsAtSame(s, t, i, r, j, drop);
  }

  /** Stripping twice is stripping once. */
  lemma StripIdempotent(s: string, drop: char -> bool)
    ensures Strip(Strip(s, drop), drop) == Strip(s, drop)
  {
    var r := Strip(s, drop);
    assert IsPrefixAt(r, r, 0) && r[..0] == [] && r[|r|..] == [];
    assert StripsAt(r, r, 0, drop);
    StripUnique(r, r, drop);
  }

  /** Neither end of `s` is whitespace, as after `strip()`. */
  predicate SpaceFree(s: string) {
    |s| > 0 ==> !IsSpace(s[0]) && !IsSpace(s[|s| - 1])
  }

  /** Python's `str.strip()` with no argument. */
  function StripSpace(s: string): (r: string)
    ensures StripsTo(s, r, IsSpace)
    ensures SpaceFree(r)
  {
    Strip(s, IsSpace)
  }

  predicate IsDigit(c: char) {
    '0' <= c <= '9'
  }

  function DigitChar(d: nat): (c: char)
    requires d < 10
    ensures IsDigit(c) && c as int - '0' as int == d
  {
    ('0' as int + d) as char
  }

  /** Python's `str(n)` for a non-negative integer: decimal digits, no leading zero. */
  function NatToString(n: nat): (s: string)
    ensures |s| > 0 && forall k :: 0 <= k < |s| ==> IsDigit(s[k])
    ensures |s| > 1 ==> s[0] != '0'
    decreases n
  {
    if n < 10 then [DigitChar(n)] else NatToString(n / 10) + [DigitChar(n % 10)]
  }

  /** The value a string of decimal digits denotes. */
  function DecimalValue(s: string): int
    requires forall k :: 0 <= k < |s| ==> IsDigit(s[k])
  {
    if |s| == 0 then 0 else DecimalValue(s[..|s| - 1]) * 10 + (s[|s| - 1] as int - '0' as int)
  }

  /** Reading back what `NatToString` printed gives the number. */
  lemma {:induction false} NatToStringRoundTrip(n: nat)
    ensures DecimalValue(NatToString(n)) == n
    decreases n
  {
    if n >= 10 {
      NatToStringRoundTrip(n / 10);
      var s := NatToString(n);
      assert s[..|s| - 1] == NatToString(n / 10);
    }
  }

  predicate AllDigits(s: string) {
    forall k :: 0 <= k < |s| ==> IsDigit(s[k])
  }

  /** `s` is the decimal notation of the integer `n`: digits without a
      leading zero, after a minus sign when `n` is negative. */
  predicate Denotes(s: string, n: int) {
    if n >= 0 then
      |s| > 0 && AllDigits(s) && (|s| > 1 ==> s[0] != '0') && DecimalValue(s) == n
    else
      |s| > 1 && s[0] == '-' && AllDigits(s[1..]) && s[1] != '0' && DecimalValue(s[1..]) == -n
  }

  /** A notation denotes at most one integer. */
  lemma DenotesUnique(s: string, n: int, m: int)
    requires Denotes(s, n) && Denotes(s, m)
    ensures n == m
  {
  }

  /** Python's `str(n)` (and an f-string field) for any integer. */
  function IntToString(n: int): (s: string)
    ensures Denotes(s, n)
    ensures forall k :: 0 <= k < |s| ==> IsDigit(s[k]) || s[k] == '-'
  {
    NatToStringRoundTrip(if n < 0 then -n else n);
    if n < 0 then
      var d := NatToString(-n);
      assert ("-" + d)[1..] == d;
      "-" + d
    else
      NatToString(n)
  }
}
